=== FILE: README.md ===
# Bored no more: a Dafny model of the suggestion logic

"Bored no more" suggests something to do with the user's free time. It picks a random
activity from two tables: indoor activities, and outdoor ones that are only offered when
the weather is good. The activity must fit the minutes the user has. The weather verdict
comes from an AEMET municipal forecast. The municipality comes from the user's coordinates
through a reverse-geocoding answer and a table of AEMET municipality codes.

The repository keeps several near-duplicate versions of this logic. This project models
each of them as pure Dafny functions over immutable values, one module per source file:

- `AppCopy` (`streamlit_appcopy.py`): fresh, "similar" and "different" suggestions, the
  "Xh Ymin" budget text, and the `'good'` weather-state check.
- `BetaApp` (`_versions/beta/streamlit_app.py`): suggestions that skip the names already
  turned down, and the rain-based verdict. It also models the session step run on each page
  load: the initial suggestion, then the two reject buttons.
- `App` (`streamlit_app.py`): a suggestion with no emptiness check, and the verdict read with
  `int()`.
- `BetaWeather` (`_versions/beta/weather.py`) and `Weather` (`weather.py`): time blocks,
  per-block lookups, the current temperature, the most frequent sky, and the assembly of the
  six-field weather record.
- `Geolocation` (`geolocation.py`): the address-component priority, the code lookup, and the
  all-or-nothing location result.

Shared modules:

- `Base`: `Option`, and `Attempt` for a call that returns or raises an exception that
  escapes.
- `Seqs`: order-preserving filter, first match, sampling, most common element.
- `Text`: decimal text, `int()` parsing, two-digit padding.
- `Activities`: the catalogue and the candidate pool.
- `Forecast`: the forecast's data shapes, the six-hour blocks and the weather record.

Modelling conventions:

- `sample(n=1)` takes a `draw: nat` parameter and picks candidate `draw % |candidates|`.
  Each suggestion has two halves. Its contract says what every draw can return. A
  "reaches every" lemma says that every candidate is returned by some draw.
- The current hour, the HTTP answers and the button press are parameters. A failed request
  is `None`.
- Python's truthiness, `dict.get` defaults and the exceptions the code lets escape are all
  written out explicitly.

## Model

| member | source | states |
|---|---|---|
| Activities.Pool | streamlit_appcopy.py:84 | The pool holds every indoor activity, and every outdoor one exactly when the weather is good. The pool is the indoor table followed by the outdoor table in good weather, each exactly once and in order, and the indoor table alone otherwise. |
| Activities.Fitting | streamlit_appcopy.py:85 | Keeps exactly the pool members whose estimated minutes are within the budget. |
| Activities.GoodWeatherWidensPool | streamlit_appcopy.py:84 | Every bad-weather candidate is also a good-weather candidate. |
| Seqs.Sample | streamlit_appcopy.py:88 | `sample(n=1)` returns a member of the sequence, and nothing exactly when the sequence is empty. |
| Seqs.SampleReachesEvery | streamlit_appcopy.py:88 | Every member of the sequence is the sample for some draw. |
| Seqs.MostCommon | _versions/beta/weather.py:76-78 | `Counter.most_common(1)`: the element with the highest count, the first seen among ties. Nothing for an empty list. |
| AppCopy.SuggestTask | streamlit_appcopy.py:83-88 | The suggestion fits the budget. It is an indoor activity, or an outdoor one only in good weather. It is `None` exactly when no pool member fits. |
| AppCopy.SuggestTaskReachesEvery | streamlit_appcopy.py:85-88 | Every pool member that fits the budget can be suggested. |
| AppCopy.SuggestSimilarTask | streamlit_appcopy.py:90-97 | The suggestion has the given category and a different subcategory, and fits the budget. It is `None`, not an error, exactly when no pool member qualifies. |
| AppCopy.SuggestSimilarTaskReachesEvery | streamlit_appcopy.py:92-97 | Every pool member of the category with another subcategory that fits can be suggested. |
| AppCopy.SuggestDifferentTask | streamlit_appcopy.py:99-105 | The suggestion has another category and fits the budget. It is `None` exactly when no pool member qualifies. |
| AppCopy.SuggestDifferentTaskReachesEvery | streamlit_appcopy.py:101-105 | Every pool member of another category that fits can be suggested. |
| AppCopy.SplitMinutes | streamlit_appcopy.py:147-148 | Hours and minutes recompose the budget (`hours*60 + minutes`), with minutes in 0..59. |
| AppCopy.TimeText | streamlit_appcopy.py:149 | The text has an hour part exactly when the budget is at least 60 minutes, and always ends in "min". |
| AppCopy.TimeTextRoundTrip | streamlit_appcopy.py:147-149 | The text determines the budget: reading "Xh Ymin" or "Ymin" back gives the minutes. |
| AppCopy.IsGoodWeather | streamlit_appcopy.py:77-80 | Combined with line 153: the weather is bad only when the service answers with a `state` other than `'good'`. A failed request or a missing `state` counts as good. |
| BetaApp.Unexcluded | _versions/beta/streamlit_app.py:40-42 | Keeps exactly the pool members whose name is not excluded. |
| BetaApp.SuggestTask | _versions/beta/streamlit_app.py:31-51 | The suggestion's name is not excluded. It fits the budget and comes from the weather's pool. It is `None` exactly when every pool member is excluded or too long. |
| BetaApp.SuggestTaskReachesEvery | _versions/beta/streamlit_app.py:41-48 | Every pool member that is not excluded and fits can be suggested. |
| BetaApp.IrrelevantExclusionsChangeNothing | _versions/beta/streamlit_app.py:40-45 | An exclusion list naming no pool member gives, draw for draw, the prototype's suggestion. |
| BetaApp.UnexcludedKeepsAll | _versions/beta/streamlit_app.py:41-42 | An exclusion list naming no pool member keeps the whole pool, in order. |
| BetaApp.RainVerdictAsWritten | _versions/beta/streamlit_app.py:112 | As written, the verdict is defined only for a numeric reading, where it is `< 50`. A missing reading raises. |
| BetaApp.MissingForecastRaises | _versions/beta/streamlit_app.py:112 | When either forecast fetch fails, the verdict as written raises. |
| BetaApp.IsGoodWeather | _versions/beta/streamlit_app.py:112 | Corrected: good exactly when there is a numeric rain probability below 50. With no reading the weather is bad. |
| BetaApp.VerdictsAgreeOnReadings | _versions/beta/streamlit_app.py:112 | The corrected verdict equals the as-written one wherever that one does not raise, and is "bad" where it does. |
| BetaApp.Reject | _versions/beta/streamlit_app.py:144-172 | A reject appends exactly the current name to the history. A new task's name differs from the rejected one and from every earlier one; it fits and comes from the pool. The task is kept exactly when no such candidate exists. |
| BetaApp.Run | _versions/beta/streamlit_app.py:114-172 | An initial suggestion is made only when none is set. It avoids the history, fits the budget and comes from the weather's pool, and it is `None` exactly when no such candidate exists. A reject on a stored task is exactly the `Reject` step. A stored `None` or a non-reject button leaves the session unchanged. The history grows by at most one name. The weather is the corrected rain verdict. |
| BetaApp.RunStaysConsistent | _versions/beta/streamlit_app.py:114-172 | A page load keeps the current task and every history name within the catalogue. |
| BetaApp.ReplayStaysConsistent | _versions/beta/streamlit_app.py:114-172 | Over any sequence of page loads the session stays within the catalogue. The old history stays a prefix, and the history grows by at most one name per load. |
| BetaApp.ReplayFromFresh | _versions/beta/streamlit_app.py:115-126 | Starting from a first visit's empty session, any sequence of page loads keeps the session within the catalogue and adds at most one name per load. |
| Text.Pad2 | _versions/beta/weather.py:45 | `{:02d}` of a number below 100 is exactly two decimal digits. |
| Text.Pad2RoundTrip | _versions/beta/weather.py:45 | The two digits read back as the number. |
| Forecast.Today | _versions/beta/weather.py:121 | Today's forecast exists exactly when the answer is non-empty and its first prediction has a non-empty `dia`. |
| Forecast.TimeBlock | _versions/beta/weather.py:40-46 | The hour has a block exactly when it is in 0..23. |
| Forecast.TimeBlockIsSixHourWindow | _versions/beta/weather.py:42-45 | The block of an hour is the label of the six-hour window starting at `6*(hour/6)`. |
| Forecast.BlockLabelRoundTrip | _versions/beta/weather.py:45 | A label `"ii-ff"` reads back as its two bounds. |
| Forecast.TimeBlockRoundTrip | _versions/beta/weather.py:42-45 | The label names a six-hour window that starts at a multiple of six and holds the hour. |
| Forecast.SameBlockIffSameWindow | _versions/beta/weather.py:42-46 | Two hours share a label exactly when they are in the same six-hour window. |
| Forecast.Descriptions | _versions/beta/weather.py:73-75 | The non-empty descriptions of the entries: every one comes from an entry and every entry's is in the list. The list is empty exactly when no entry has one. |
| Forecast.DescriptionsInOrder | _versions/beta/weather.py:73-75 | The descriptions keep the entries' order: those of a concatenation are those of each part in turn. Together with `DescriptionsOfOne` this fixes the list that decides the first-seen tie-break. |
| Forecast.DescriptionsOfOne | _versions/beta/weather.py:73-75 | A single entry contributes its description exactly when it is present and non-empty. |
| Forecast.DescriptionsCount | _versions/beta/weather.py:73-76 | Each non-empty description is in the list as many times as entries carry it, so the counts `Counter` sees are the entries' counts. |
| BetaWeather.Temperatures | _versions/beta/weather.py:48-56 | `(maxima, minima)` when the daily `temperatura` object has both, else `(None, None)`. Never one without the other. |
| BetaWeather.CurrentTemperature | _versions/beta/weather.py:58-68 | The `value` of the first entry for the hour, when no earlier entry stops the scan. `None` when there is none. |
| BetaWeather.MostFrequentSky | _versions/beta/weather.py:70-81 | A non-empty description with a maximal count among the day's descriptions. No entry's description is carried by more entries. `None` exactly when there are none. |
| BetaWeather.MostCommonCountsEntries | _versions/beta/weather.py:73-78 | The description `most_common(1)` picks is carried by at least as many entries as any other entry's description. |
| BetaWeather.LookupByBlock | _versions/beta/weather.py:83-96 | The key's field (`descripcion`, `velocidad` or `value`) of the first entry of the block. `None` when no entry belongs to it. |
| BetaWeather.ProcessWeather | _versions/beta/weather.py:98-153 | All six fields are `None` when either fetch fails. The range is all-or-nothing. Daily fields need today's daily forecast and hourly ones today's hourly forecast. Wind and rain need a block for the hour. With both fetched, the range is `obtener_temperaturas`, the sky is the most frequent description and the current temperature is the one for the hour. The wind is the block lookup in `viento` and the rain the one in `probPrecipitacion`. |
| Weather.Temperatures | weather.py:44-47 | `(maxima, minima)` of the daily object. Anything else raises. |
| Weather.CurrentTemperature | weather.py:50-55 | The first entry for the hour gives its `value`. "Información no disponible" when every `periodo` is another hour. A missing key or a non-numeric `periodo` met first raises. Given the daily object, the loop runs over its keys and raises TypeError, unless the object has neither key, which yields "Información no disponible". |
| Weather.MostFrequentSky | weather.py:58-63 | A description of maximal count, carried by at least as many entries as any other. "Información no disponible" when there is none. Raises exactly when `estadoCielo` is missing. |
| Weather.FirstInBlock | weather.py:66-83 | The field of the first entry of the block, or the sentinel when none matches. An entry without `periodo` met first raises. |
| Weather.BlockLookupsAgree | weather.py:66-83 | On entries that all have a `periodo` up to the block's first one, this lookup and the later revision's `obtener_dato_por_bloque` (_versions/beta/weather.py:83-96) return the same field. |
| Weather.SkyByBlock | weather.py:66-70 | The per-block sky lookup. Raises without `estadoCielo`. |
| Weather.WindByBlock | weather.py:72-77 | The per-block wind lookup. Gives the sentinel, not an error, without `viento`. |
| Weather.RainByBlock | weather.py:79-83 | The per-block rain lookup. Raises without `probPrecipitacion`. |
| Weather.DailyPart | weather.py:94-97 | Nothing from an unfetched daily forecast. Otherwise today's day, with the range that `obtener_temperaturas` gives and the most frequent sky. It raises exactly when there is no day for today or one of the two extractions raises. |
| Weather.HourlyPart | weather.py:100-107 | Nothing from an unfetched hourly forecast. Otherwise the current temperature for the hour, and the wind and the rain of the hour's block, all read from the hourly day. It raises exactly when there is no day for today or one of the three extractions raises. |
| Weather.ProcessWeatherAsWritten | weather.py:86-117 | As written, a fetched hourly forecast without a daily one always raises, because `prediccion_diaria` is unbound. With neither fetched, the record is all `None`. |
| Weather.AsWrittenDailyOnly | weather.py:86-97 | As written, with only the daily forecast fetched, the call raises exactly when the daily part does and otherwise returns that part's range and sky. |
| Weather.AsWrittenReadsWindAndRainFromDailyDay | weather.py:99-107 | As written, with both forecasts fetched: the current temperature is the hourly day's, but wind and rain are the block lookups in the daily day. The call raises exactly when the daily part or one of these three readings raises, or there is no hourly day for today. |
| Weather.ProcessWeather | weather.py:86-117 | Corrected: each unfetched forecast leaves its three fields `None` and cannot make the call raise. Each fetched one fills its fields with the values its extraction functions give: the range and the sky of today's daily day, and the current temperature, wind and rain of today's hourly day. |
| Weather.RaisesIffAPartRaises | weather.py:94-107 | Corrected, the call raises exactly when reading the daily or the hourly forecast raises, so it returns whenever both parts do. |
| Weather.RevisionsAgreeOnRangeSkyAndTemperature | weather.py:94-104 | Where the as-written and the corrected call both return, they give the same range, sky and current temperature; only wind and rain can differ. |
| Weather.UnfetchedForecastCannotRaise | weather.py:94-107 | With one forecast missing, the corrected call raises exactly when reading the other forecast raises. |
| Weather.HourlyOnlyForecastRaises | weather.py:100-107 | A concrete input (no daily forecast, an empty hourly one) that raises as written. |
| Weather.HourlyOnlyForecastIsKept | weather.py:100-107 | The same input yields, corrected, a record whose hourly fields are the sentinel. |
| App.SuggestTask | streamlit_app.py:13-21 | The suggestion fits the budget and comes from the weather's pool. With no pool member that fits, sampling raises. |
| App.SuggestTaskReachesEvery | streamlit_app.py:19-20 | Every pool member that fits can be suggested. |
| App.SuggestTaskMatchesPrototype | streamlit_app.py:13-21 | For every draw it picks the prototype's suggestion, and raises where the prototype answers `None`. |
| App.GoodWeather | streamlit_app.py:52 | Good exactly when the reading, as an integer, is below 50. `None` and a text that is not an integer raise. |
| App.TextAndNumberAgree | streamlit_app.py:52 | A probability sent as decimal text gives the same verdict as the number. |
| App.AgreesWithLaterVerdict | streamlit_app.py:52 | On numeric readings the verdict is the later version's one. |
| App.UnavailableRainRaises | streamlit_app.py:52 | The reading "Información no disponible" makes the verdict raise. |
| App.UnfetchedHourlyRaises | streamlit_app.py:52 | When the hourly forecast was not fetched, the record's rain is `None` and the verdict raises. This holds with the weather module as written, which this application imports, and with the corrected one. |
| Geolocation.FirstOfType | geolocation.py:37-39 | The `long_name` of the first component of the type. `None` exactly when no component has it. |
| Geolocation.Municipality | geolocation.py:35-46 | The first `locality`, else the first admin level 4, else the first admin level 3, taken from the first result. `None` without results or without any of the three. |
| Geolocation.LocalityWins | geolocation.py:37-39 | A `locality` component anywhere beats every administrative area. The name returned is a locality at or before it. |
| Geolocation.DropTwo | geolocation.py:54 | `codigo[2:]`: the code minus its first two characters, or empty when it is shorter. |
| Geolocation.MunicipalityCode | geolocation.py:51-55 | The first row with the name gives the code. `None` exactly when no row has the name. |
| Geolocation.UserLocation | geolocation.py:58-71 | Both values or neither. Both exactly when the coordinates are nonzero and the name and the code are non-empty. |
| Geolocation.LocationIsInTable | geolocation.py:58-71 | A returned location is named by some table row, and its code is that row's code without its prefix. |

## Left out

- The HTTP requests to AEMET and Google (`obtener_prediccion`, `obtener_geolocalizacion`, the request in `obtener_municipio`, `get_weather`'s request). Their answers are parameters, with `None` for a failed request.
- The Streamlit interface: layout, messages, balloons, `experimental_rerun`, and the "I'll do it" button's places search through GooglePlaces.
- Loading the CSV tables with pandas. The tables are sequences of records.
- `get_nearest_municipio` (streamlit_appcopy.py:65-68): a floating-point Euclidean distance.
- `get_user_location` in streamlit_appcopy.py (41-51): one HTTP geocoding request for the fixed address "Cádiz, Spain"; it has no decision logic beyond the request.
- The current hour from `datetime.now()`: it is a parameter.
- The distribution of `sample(n=1)`: the model says which activities are possible, not how likely they are.
- The module-level lines at the end of weather.py (120-129): they use a name that is never defined.
- The prototype's NameError on `weather` (streamlit_appcopy.py:153) when the location is unknown: the weather state is taken as given.
- JSON values are integers or strings. A JSON `null` is treated like a missing key, and floats are not modelled.
- Text.ParseInt: accepts only an optional sign and ASCII digits. It does not model `int()` accepting surrounding whitespace, underscores and non-ASCII digits.
- BetaApp.Run: decides the weather with the corrected verdict `BetaApp.IsGoodWeather`. As written, line 112 raises TypeError for a record without a numeric rain reading; the handler at line 174 then ends the page load before the session is touched, so the session stays unchanged. `Run` instead suggests from the indoor pool. The as-written verdict is `BetaApp.RainVerdictAsWritten`.
- BetaApp.Run: one page load handles at most one button. It does not model what Streamlit does when a second reject click arrives before the rerun.

## Findings

| source | as written | input that shows it | evidently intended | confidence | as-written member | corrected member |
|---|---|---|---|---|---|---|
| _versions/beta/streamlit_app.py:112 | `datos_clima.get('lluvia_actual', 100) < 50`. The record always holds the key, so a missing reading is `None` and `None < 50` raises TypeError. The handler at line 174 then ends the page load without a suggestion. | Any run in which either forecast fetch fails, or the hour has no rain entry. | No reading means bad weather (the comment on the line): the default of 100 applies. | not executed | BetaApp.MissingForecastRaises | BetaApp.IsGoodWeather |
| weather.py:106-107 | Wind and rain are read from `prediccion_diaria`, which is unbound when the daily forecast was not fetched. | No daily forecast and a well-formed hourly one (`Weather.EmptyHourly`): UnboundLocalError. | Read wind and rain from the hourly day, as the later revision does (_versions/beta/weather.py:135-138). | not executed | Weather.HourlyOnlyForecastRaises | Weather.ProcessWeather |

=== FILE: activities.dfy ===
/**
 The activity catalogue: two tables of activities (indoor and outdoor), and the pool of
 candidates the weather allows.
 */
module Activities {
  import Seqs

  /**
   One row of an activity table: the columns `Nombre_Tarea`, `Categoria_Principal`,
   `Subcategoria` and `Tiempo_Estimado_Minutos`. Nothing checks that the duration is positive.
   */
  datatype Activity = Activity(name: string, category: string, subcategory: string, minutes: int)

  /** The indoor table (`home_activities.csv`) and the outdoor table (`outdoor_activities.csv`). */
  datatype Catalogue = Catalogue(indoor: seq<Activity>, outdoor: seq<Activity>)

  /** The activity can be done in the time the user has. */
  predicate Fits(a: Activity, available: int) {
    a.minutes <= available
  }

  /** `pool[pool['Tiempo_Estimado_Minutos'] <= available_time]`: the members that fit, in order. */
  function Fitting(pool: seq<Activity>, available: int): (r: seq<Activity>)
    ensures forall i :: 0 <= i < |r| ==> r[i] in pool && Fits(r[i], available)
    ensures forall i :: 0 <= i < |pool| && Fits(pool[i], available) ==> pool[i] in r
  {
    Seqs.Filter(pool, (a: Activity) => Fits(a, available))
  }

  /**
   The candidate pool: `pd.concat([indoor, outdoor])` in good weather, the indoor table alone
   otherwise.
   */
  function Pool(goodWeather: bool, cat: Catalogue): (pool: seq<Activity>)
    ensures forall i :: 0 <= i < |pool| ==> pool[i] in cat.indoor || (goodWeather && pool[i] in cat.outdoor)
    ensures forall i :: 0 <= i < |cat.indoor| ==> cat.indoor[i] in pool
    ensures goodWeather ==> forall i :: 0 <= i < |cat.outdoor| ==> cat.outdoor[i] in pool
    ensures |cat.indoor| <= |pool| && pool[..|cat.indoor|] == cat.indoor
    ensures goodWeather ==> pool[|cat.indoor|..] == cat.outdoor
    ensures !goodWeather ==> |pool| == |cat.indoor|
  {
    if goodWeather then cat.indoor + cat.outdoor else cat.indoor
  }

  /** Every pool member is an activity of the catalogue, whatever the weather. */
  ghost predicate InCatalogue(a: Activity, cat: Catalogue) {
    a in cat.indoor || a in cat.outdoor
  }

  /** Good weather only ever widens the pool: each bad-weather candidate stays a candidate. */
  lemma GoodWeatherWidensPool(cat: Catalogue, a: Activity)
    requires a in Pool(false, cat)
    ensures a in Pool(true, cat)
  {
  }
}

=== FILE: app.dfy ===
/**
 The first application, `streamlit_app.py`: one suggestion sampled without an emptiness
 check, and the weather verdict read from the rain probability with `int()`.
 */
module App {
  import opened Base
  import opened Activities
  import opened Forecast
  import Seqs
  import Text
  import AppCopy
  import BetaApp
  import Weather

  /**
   `suggest_task`: a random pool member that fits the budget. With nothing left to sample,
   `sample(n=1)` raises ValueError, which nothing catches.
   */
  function SuggestTask(goodWeather: bool, available: int, cat: Catalogue, draw: nat): (r: Attempt<Activity>)
    ensures r.Done? ==> Fits(r.value, available)
    ensures r.Done? ==> r.value in cat.indoor || (goodWeather && r.value in cat.outdoor)
    ensures r.Raised? <==> forall i :: 0 <= i < |Pool(goodWeather, cat)| ==> !Fits(Pool(goodWeather, cat)[i], available)
  {
    var candidates := Fitting(Pool(goodWeather, cat), available);
    match Seqs.Sample(candidates, draw)
    case Some(a) => Done(a)
    case None => Raised
  }

  /** Every pool member that fits the budget is the suggestion for some draw. */
  lemma SuggestTaskReachesEvery(goodWeather: bool, available: int, cat: Catalogue, a: Activity)
    requires a in Pool(goodWeather, cat) && Fits(a, available)
    ensures exists draw: nat :: SuggestTask(goodWeather, available, cat, draw) == Done(a)
  {
    var pool := Pool(goodWeather, cat);
    var i :| 0 <= i < |pool| && pool[i] == a;
    var candidates := Fitting(pool, available);
    assert a in candidates;
    Seqs.SampleReachesEvery(candidates, a);
    var draw: nat :| Seqs.Sample(candidates, draw) == Some(a);
    assert SuggestTask(goodWeather, available, cat, draw) == Done(a);
  }

  /**
   For every draw this variant picks what the prototype's `suggest_task` picks; where the
   prototype answers `None` this one raises.
   */
  lemma SuggestTaskMatchesPrototype(goodWeather: bool, available: int, cat: Catalogue, draw: nat)
    ensures var proto := AppCopy.SuggestTask(goodWeather, available, cat, draw);
            SuggestTask(goodWeather, available, cat, draw)
              == if proto.Some? then Done(proto.value) else Raised
  {
  }

  /**
   `int(datos_clima['lluvia_actual']) < 50`. `int(None)` raises TypeError and `int()` of a
   text that is not an optional sign followed by digits raises ValueError.
   */
  function GoodWeather(rain: Option<Reading>): (r: Attempt<bool>)
    ensures rain.None? ==> r.Raised?
    ensures forall n :: rain == Some(Num(n)) ==> r == Done(n < 50)
    ensures forall s :: rain == Some(Str(s)) ==>
              (r.Done? <==> Text.ParseInt(s).Some?)
              && (r.Done? ==> (r.value <==> Text.ParseInt(s).value < 50))
  {
    match rain
    case None => Raised
    case Some(Num(n)) => Done(n < 50)
    case Some(Str(s)) =>
      match Text.ParseInt(s)
      case Some(v) => Done(v < 50)
      case None => Raised
  }

  /** A rain probability gives the same verdict whether the forecast sends it as a number or as its decimal text. */
  lemma TextAndNumberAgree(n: int)
    ensures GoodWeather(Some(Str(Text.IntToDecimal(n)))) == GoodWeather(Some(Num(n)))
  {
    Text.IntToDecimalRoundTrip(n);
  }

  /** On numeric readings this verdict is the later version's rain verdict. */
  lemma AgreesWithLaterVerdict(n: int)
    ensures GoodWeather(Some(Num(n))) == Done(BetaApp.IsGoodWeather(Some(Num(n))))
  {
  }

  /**
   The weather module's "no information" text is not a number, so a rain reading of
   "Información no disponible" makes the verdict raise.
   */
  lemma UnavailableRainRaises()
    ensures GoodWeather(Some(Weather.NotAvailable)) == Raised
  {
  }

  /**
   When the hourly forecast could not be fetched the record's rain is `None`, so the verdict
   raises: with the weather module as written, which this application imports, and with the
   corrected one alike.
   */
  lemma UnfetchedHourlyRaises(daily: Response, hourly: Response, hour: int)
    requires !Fetched(hourly)
    ensures Weather.ProcessWeatherAsWritten(daily, hourly, hour).Done? ==>
              GoodWeather(Weather.ProcessWeatherAsWritten(daily, hourly, hour).value.rain) == Raised
    ensures Weather.ProcessWeather(daily, hourly, hour).Done? ==>
              GoodWeather(Weather.ProcessWeather(daily, hourly, hour).value.rain) == Raised
  {
  }
}

=== FILE: app_copy.dfy ===
/**
 The single-file prototype `streamlit_appcopy.py`: fresh, similar and different suggestions,
 the "Xh Ymin" display of the time budget, and its weather-state check.
 */
module AppCopy {
  import opened Base
  import opened Activities
  import Seqs
  import Text

  // ---------------------------------------------------------------------------------------
  // Selection

  /** Same main category, another subcategory: the "something similar" mask. */
  predicate Similar(a: Activity, category: string, subcategory: string) {
    a.category == category && a.subcategory != subcategory
  }

  /** The pool members of the same category, another subcategory, that fit the budget. */
  function SimilarCandidates(category: string, subcategory: string, available: int,
                             goodWeather: bool, cat: Catalogue): seq<Activity> {
    Seqs.Filter(Pool(goodWeather, cat), (a: Activity) => Similar(a, category, subcategory) && Fits(a, available))
  }

  /** The pool members of another category that fit the budget. */
  function DifferentCandidates(category: string, available: int, goodWeather: bool,
                               cat: Catalogue): seq<Activity> {
    Seqs.Filter(Pool(goodWeather, cat), (a: Activity) => a.category != category && Fits(a, available))
  }

  /**
   `suggest_task`: a random pool member that fits the budget, or `None` when none fits.
   Outdoor activities are candidates only in good weather.
   */
  function SuggestTask(goodWeather: bool, available: int, cat: Catalogue, draw: nat): (r: Option<Activity>)
    ensures r.Some? ==> Fits(r.value, available)
    ensures r.Some? ==> r.value in cat.indoor || (goodWeather && r.value in cat.outdoor)
    ensures r.None? <==> forall i :: 0 <= i < |Pool(goodWeather, cat)| ==> !Fits(Pool(goodWeather, cat)[i], available)
  {
    Seqs.Sample(Fitting(Pool(goodWeather, cat), available), draw)
  }

  /** Conversely, every pool member that fits the budget is the suggestion for some draw. */
  lemma SuggestTaskReachesEvery(goodWeather: bool, available: int, cat: Catalogue, a: Activity)
    requires a in Pool(goodWeather, cat) && Fits(a, available)
    ensures exists draw: nat :: SuggestTask(goodWeather, available, cat, draw) == Some(a)
  {
    var pool := Pool(goodWeather, cat);
    var i :| 0 <= i < |pool| && pool[i] == a;
    var candidates := Fitting(pool, available);
    assert a in candidates;
    Seqs.SampleReachesEvery(candidates, a);
    var draw: nat :| Seqs.Sample(candidates, draw) == Some(a);
    assert SuggestTask(goodWeather, available, cat, draw) == Some(a);
  }

  /**
   `suggest_similar_task`: a random pool member of the given category but another
   subcategory that fits the budget, or `None` when there is none.
   */
  function SuggestSimilarTask(category: string, subcategory: string, available: int,
                              goodWeather: bool, cat: Catalogue, draw: nat): (r: Option<Activity>)
    ensures r.Some? ==> r.value.category == category && r.value.subcategory != subcategory
    ensures r.Some? ==> Fits(r.value, available)
    ensures r.Some? ==> r.value in cat.indoor || (goodWeather && r.value in cat.outdoor)
    ensures r.None? <==> forall i :: 0 <= i < |Pool(goodWeather, cat)| ==>
                           !(Similar(Pool(goodWeather, cat)[i], category, subcategory)
                             && Fits(Pool(goodWeather, cat)[i], available))
  {
    Seqs.Sample(SimilarCandidates(category, subcategory, available, goodWeather, cat), draw)
  }

  /** Every similar pool member that fits the budget is the suggestion for some draw. */
  lemma SuggestSimilarTaskReachesEvery(category: string, subcategory: string, available: int,
                                       goodWeather: bool, cat: Catalogue, a: Activity)
    requires a in Pool(goodWeather, cat) && Similar(a, category, subcategory) && Fits(a, available)
    ensures exists draw: nat :: SuggestSimilarTask(category, subcategory, available, goodWeather, cat, draw) == Some(a)
  {
    var pool := Pool(goodWeather, cat);
    var i :| 0 <= i < |pool| && pool[i] == a;
    var candidates := SimilarCandidates(category, subcategory, available, goodWeather, cat);
    assert a in candidates;
    Seqs.SampleReachesEvery(candidates, a);
    var draw: nat :| Seqs.Sample(candidates, draw) == Some(a);
    assert SuggestSimilarTask(category, subcategory, available, goodWeather, cat, draw) == Some(a);
  }

  /**
   `suggest_different_task`: a random pool member of another category that fits the budget,
   or `None` when there is none.
   */
  function SuggestDifferentTask(category: string, available: int, goodWeather: bool,
                                cat: Catalogue, draw: nat): (r: Option<Activity>)
    ensures r.Some? ==> r.value.category != category
    ensures r.Some? ==> Fits(r.value, available)
    ensures r.Some? ==> r.value in cat.indoor || (goodWeather && r.value in cat.outdoor)
    ensures r.None? <==> forall i :: 0 <= i < |Pool(goodWeather, cat)| ==>
                           !(Pool(goodWeather, cat)[i].category != category
                             && Fits(Pool(goodWeather, cat)[i], available))
  {
    Seqs.Sample(DifferentCandidates(category, available, goodWeather, cat), draw)
  }

  /** Every pool member of another category that fits the budget is the suggestion for some draw. */
  lemma SuggestDifferentTaskReachesEvery(category: string, available: int, goodWeather: bool,
                                         cat: Catalogue, a: Activity)
    requires a in Pool(goodWeather, cat) && a.category != category && Fits(a, available)
    ensures exists draw: nat :: SuggestDifferentTask(category, available, goodWeather, cat, draw) == Some(a)
  {
    var pool := Pool(goodWeather, cat);
    var i :| 0 <= i < |pool| && pool[i] == a;
    var candidates := DifferentCandidates(category, available, goodWeather, cat);
    assert a in candidates;
    Seqs.SampleReachesEvery(candidates, a);
    var draw: nat :| Seqs.Sample(candidates, draw) == Some(a);
    assert SuggestDifferentTask(category, available, goodWeather, cat, draw) == Some(a);
  }

  // ---------------------------------------------------------------------------------------
  // Time budget display

  /**
   `hours = t // 60` and `minutes = t % 60`. Python floors; with the positive divisor 60 that is
   Dafny's Euclidean division too.
   */
  function SplitMinutes(t: int): (hm: (int, int))
    ensures hm.0 * 60 + hm.1 == t
    ensures 0 <= hm.1 < 60
  {
    (t / 60, t % 60)
  }

  /** `f"{hours}h {minutes}min" if hours > 0 else f"{minutes}min"`. */
  function TimeText(t: int): (text: string)
    ensures 'h' in text <==> t >= 60
    ensures |text| >= 4 && text[|text| - 3..] == "min"
  {
    var (hours, minutes) := SplitMinutes(t);
    NoHourMark(minutes);
    if hours > 0 then
      NoHourMark(hours);
      var text := Text.IntToDecimal(hours) + "h " + Text.IntToDecimal(minutes) + "min";
      assert text[|Text.IntToDecimal(hours)|] == 'h';
      text
    else
      Text.IntToDecimal(minutes) + "min"
  }

  /** Decimal text never contains the hour mark `h`. */
  lemma NoHourMark(n: int)
    ensures 'h' !in Text.IntToDecimal(n)
  {
  }

  /** Reads a time text back into minutes: the inverse of `TimeText` on non-negative budgets. */
  function ReadTimeText(text: string): Option<int> {
    if |text| < 3 || text[|text| - 3..] != "min" then None
    else
      var body := text[..|text| - 3];
      var k := Seqs.FindFirst(body, (c: char) => c == 'h');
      if k == |body| then Text.ParseInt(body)
      else if k + 1 < |body| && body[k + 1] == ' ' then
        match (Text.ParseInt(body[..k]), Text.ParseInt(body[k + 2..]))
        case (Some(h), Some(m)) => Some(h * 60 + m)
        case _ => None
      else None
  }

  /**
   The displayed text determines the budget: reading it back gives the minutes the user chose
   (the slider offers 10 to 240).
   */
  lemma {:induction false} TimeTextRoundTrip(t: int)
    requires t >= 0
    ensures ReadTimeText(TimeText(t)) == Some(t)
  {
    var (hours, minutes) := SplitMinutes(t);
    var text := TimeText(t);
    var body := text[..|text| - 3];
    var isH := (c: char) => c == 'h';
    Text.IntToDecimalRoundTrip(minutes);
    if hours > 0 {
      var dh := Text.IntToDecimal(hours);
      var dm := Text.IntToDecimal(minutes);
      assert body == dh + "h " + dm;
      NoHourMark(hours);
      assert Seqs.IsFirst(body, isH, |dh|) by {
        forall j | 0 <= j < |dh| ensures !isH(body[j]) {
          assert body[j] == dh[j];
        }
      }
      Seqs.FirstIsUnique(body, isH, |dh|);
      assert body[..|dh|] == dh;
      assert body[|dh| + 2..] == dm;
      Text.IntToDecimalRoundTrip(hours);
    } else {
      assert body == Text.IntToDecimal(minutes);
      NoHourMark(minutes);
      assert !Seqs.Any(body, isH);
    }
  }

  // ---------------------------------------------------------------------------------------
  // Weather state

  /**
   What the weather request yields: it failed (an exception), or its JSON answer, which may
   lack the `state` key.
   */
  datatype StateReply = Failed | Reply(state: Option<string>)

  /** `get_weather`: the `state` of the answer, `'good'` when it is absent or the request failed. */
  function WeatherState(reply: StateReply): string {
    match reply
    case Failed => "good"
    case Reply(state) => state.GetOr("good")
  }

  /**
   `weather == 'good'` on the result of `get_weather`. The default is optimistic: the weather
   is bad only when the service positively reports another state.
   */
  function IsGoodWeather(reply: StateReply): (good: bool)
    ensures !good <==> reply.Reply? && reply.state.Some? && reply.state.value != "good"
  {
    WeatherState(reply) == "good"
  }
}

=== FILE: base.dfy ===
/** Small wrapper datatypes shared by every module of the model. */
module Base {

  /** A value that may be missing: Python's `None`, or a dictionary key that is absent. */
  datatype Option<T> = None | Some(value: T) {

    /** The wrapped value, or `default` when there is none (Python's `d.get(k, default)`). */
    function GetOr(default: T): T {
      match this
      case Some(v) => v
      case None => default
    }
  }

  /** The outcome of Python code that may raise: `Raised` is an exception nothing catches. */
  datatype Attempt<T> = Done(value: T) | Raised
}

=== FILE: beta_app.dfy ===
/**
 The later application, `_versions/beta/streamlit_app.py`: suggestions that skip the names
 already turned down, the rain-based weather verdict, and the session step run on every page
 load: the initial suggestion, then the two reject buttons.
 */
module BetaApp {
  import opened Base
  import opened Activities
  import opened Forecast
  import Seqs
  import AppCopy
  import BetaWeather

  // ---------------------------------------------------------------------------------------
  // Selection with an exclusion list

  /**
   `all_activities[~all_activities['Nombre_Tarea'].isin(exclude)]`, applied only when the list
   is truthy (non-empty).
   */
  function Unexcluded(pool: seq<Activity>, exclude: seq<string>): (r: seq<Activity>)
    ensures forall i :: 0 <= i < |r| ==> r[i] in pool && r[i].name !in exclude
    ensures forall i :: 0 <= i < |pool| && pool[i].name !in exclude ==> pool[i] in r
  {
    if |exclude| > 0 then Seqs.Filter(pool, (a: Activity) => a.name !in exclude) else pool
  }

  /**
   `suggest_task` with `exclude_activities`: a random pool member whose name is not excluded
   and that fits the budget; `None` when no such member is left.
   */
  function SuggestTask(goodWeather: bool, available: int, cat: Catalogue, exclude: seq<string>,
                       draw: nat): (r: Option<Activity>)
    ensures r.Some? ==> r.value.name !in exclude
    ensures r.Some? ==> Fits(r.value, available)
    ensures r.Some? ==> r.value in cat.indoor || (goodWeather && r.value in cat.outdoor)
    ensures r.None? <==> forall i :: 0 <= i < |Pool(goodWeather, cat)| ==>
                           Pool(goodWeather, cat)[i].name in exclude || !Fits(Pool(goodWeather, cat)[i], available)
  {
    var pool := Pool(goodWeather, cat);
    var candidates := Fitting(Unexcluded(pool, exclude), available);
    var r := Seqs.Sample(candidates, draw);
    assert r.Some? ==> r.value in Unexcluded(pool, exclude);
    r
  }

  /** Every pool member that is not excluded and fits the budget is the suggestion for some draw. */
  lemma SuggestTaskReachesEvery(goodWeather: bool, available: int, cat: Catalogue,
                                exclude: seq<string>, a: Activity)
    requires a in Pool(goodWeather, cat) && a.name !in exclude && Fits(a, available)
    ensures exists draw: nat :: SuggestTask(goodWeather, available, cat, exclude, draw) == Some(a)
  {
    var pool := Pool(goodWeather, cat);
    var i :| 0 <= i < |pool| && pool[i] == a;
    var kept := Unexcluded(pool, exclude);
    assert a in kept;
    var k :| 0 <= k < |kept| && kept[k] == a;
    var candidates := Fitting(kept, available);
    assert a in candidates;
    Seqs.SampleReachesEvery(candidates, a);
    var draw: nat :| Seqs.Sample(candidates, draw) == Some(a);
    assert SuggestTask(goodWeather, available, cat, exclude, draw) == Some(a);
  }

  /**
   When no pool name is excluded, the exclusion list changes nothing: for every draw the
   suggestion is the prototype's `suggest_task` one.
   */
  lemma IrrelevantExclusionsChangeNothing(goodWeather: bool, available: int, cat: Catalogue,
                                          exclude: seq<string>, draw: nat)
    requires forall i :: 0 <= i < |Pool(goodWeather, cat)| ==> Pool(goodWeather, cat)[i].name !in exclude
    ensures SuggestTask(goodWeather, available, cat, exclude, draw)
            == AppCopy.SuggestTask(goodWeather, available, cat, draw)
  {
    UnexcludedKeepsAll(Pool(goodWeather, cat), exclude);
  }

  /** An exclusion list that names no member keeps the whole pool, in order. */
  lemma {:induction false} UnexcludedKeepsAll(pool: seq<Activity>, exclude: seq<string>)
    requires forall i :: 0 <= i < |pool| ==> pool[i].name !in exclude
    ensures Unexcluded(pool, exclude) == pool
  {
    if |exclude| > 0 {
      Seqs.FilterKeepsAll(pool, (a: Activity) => a.name !in exclude);
    }
  }

  // ---------------------------------------------------------------------------------------
  // Weather verdict

  /**
   `datos_clima.get('lluvia_actual', 100) < 50` as written. The record always holds the key,
   so the default never applies: a missing reading is `None`, and comparing `None` (or a
   string) with 50 raises TypeError, which ends the page load.
   */
  function RainVerdictAsWritten(rain: Option<Reading>): (r: Attempt<bool>)
    ensures r.Done? <==> rain.Some? && rain.value.Num?
    ensures r.Done? ==> (r.value <==> rain.value.n < 50)
  {
    match rain
    case Some(Num(n)) => Done(n < 50)
    case _ => Raised
  }

  /**
   When either forecast fetch fails, every field of the record is `None`, so the verdict as
   written raises instead of falling back to bad weather.
   */
  lemma MissingForecastRaises(daily: Response, hourly: Response, hour: int)
    requires !Fetched(daily) || !Fetched(hourly)
    ensures RainVerdictAsWritten(BetaWeather.ProcessWeather(daily, hourly, hour).rain) == Raised
  {
  }

  /** The rain probability the verdict compares, with 100 where there is no numeric reading. */
  function RainOrDefault(rain: Option<Reading>): int {
    match rain
    case Some(Num(n)) => n
    case _ => 100
  }

  /**
   The verdict the comment at line 112 describes: good weather when the rain probability is
   below 50, bad weather when there is no reading.
   */
  function IsGoodWeather(rain: Option<Reading>): (good: bool)
    ensures good <==> rain.Some? && rain.value.Num? && rain.value.n < 50
  {
    RainOrDefault(rain) < 50
  }

  /** Where the verdict as written does not raise, the corrected verdict agrees with it. */
  lemma VerdictsAgreeOnReadings(rain: Option<Reading>)
    ensures RainVerdictAsWritten(rain).Done? ==> RainVerdictAsWritten(rain).value == IsGoodWeather(rain)
    ensures RainVerdictAsWritten(rain).Raised? ==> !IsGoodWeather(rain)
  {
  }

  // ---------------------------------------------------------------------------------------
  // Session

  /** `st.session_state.current_task`: not yet set, or set to a task or to `None`. */
  datatype Slot = Unset | Stored(task: Option<Activity>)

  /** The session: the names turned down so far (`suggested_tasks_history`) and the current task. */
  datatype Session = Session(history: seq<string>, current: Slot)

  /** The session of a first visit. */
  const Fresh: Session := Session([], Unset)

  /** The button pressed on this page load, if any. */
  datatype Button = NoPress | Accept | NotKeen | NotAtAll {
    /** "No me apetece mucho" and "No me apetece nada" both turn the current task down. */
    predicate IsReject() {
      this == NotKeen || this == NotAtAll
    }
  }

  /**
   One reject button on a session holding a task: the task's name joins the history, and the
   task is replaced by a suggestion avoiding every name in the history, or kept when there is
   none.
   */
  function Reject(s: Session, goodWeather: bool, available: int, cat: Catalogue, draw: nat): (r: Session)
    requires s.current.Stored? && s.current.task.Some?
    ensures r.history == s.history + [s.current.task.value.name]
    ensures r.current.Stored? && r.current.task.Some?
    ensures r.current != s.current ==>
              var t := r.current.task.value;
              && t.name !in r.history
              && t.name != s.current.task.value.name
              && Fits(t, available)
              && (t in cat.indoor || (goodWeather && t in cat.outdoor))
    ensures r.current == s.current <==>
              forall i :: 0 <= i < |Pool(goodWeather, cat)| ==>
                Pool(goodWeather, cat)[i].name in r.history || !Fits(Pool(goodWeather, cat)[i], available)
  {
    var rejected := s.current.task.value;
    var history := s.history + [rejected.name];
    assert rejected.name in history;
    var next := SuggestTask(goodWeather, available, cat, history, draw);
    if next.Some? then Session(history, Stored(next)) else Session(history, s.current)
  }

  /**
   One page load once the weather and the budget are known: the initial suggestion when no
   task has been set yet, then the button. A stored `None` ends the page load with an error
   message and changes nothing; accepting changes nothing either.
   */
  function Run(s: Session, weather: Record, available: int, cat: Catalogue, button: Button,
               initialDraw: nat, rejectDraw: nat): (r: Session)
    ensures r.current.Stored?
    ensures s.current.Stored? && !button.IsReject() ==> r == s
    ensures s.current == Stored(None) ==> r == s
    ensures s.history <= r.history && |r.history| <= |s.history| + 1
    ensures s.current.Unset? && !button.IsReject() && r.current.task.Some? ==>
              var t := r.current.task.value;
              && t.name !in s.history
              && Fits(t, available)
              && (t in cat.indoor || (IsGoodWeather(weather.rain) && t in cat.outdoor))
    ensures s.current.Stored? && s.current.task.Some? && button.IsReject() ==>
              r == Reject(s, IsGoodWeather(weather.rain), available, cat, rejectDraw)
    ensures s.current.Unset? ==>
              (r.current.task.None? <==>
                forall i :: 0 <= i < |Pool(IsGoodWeather(weather.rain), cat)| ==>
                  var a := Pool(IsGoodWeather(weather.rain), cat)[i];
                  a.name in s.history || !Fits(a, available))
  {
    var goodWeather := IsGoodWeather(weather.rain);
    var current :=
      if s.current.Unset? then Stored(SuggestTask(goodWeather, available, cat, s.history, initialDraw))
      else s.current;
    var loaded := Session(s.history, current);
    if current.task.Some? && button.IsReject() then Reject(loaded, goodWeather, available, cat, rejectDraw)
    else loaded
  }

  /**
   The session refers to the catalogue: the current task, if any, is one of its activities,
   and every name in the history is the name of one.
   */
  ghost predicate Consistent(s: Session, cat: Catalogue) {
    && (s.current.Stored? && s.current.task.Some? ==> InCatalogue(s.current.task.value, cat))
    && forall i :: 0 <= i < |s.history| ==> NamedInCatalogue(s.history[i], cat)
  }

  /** Some activity of the catalogue has the name. */
  ghost predicate NamedInCatalogue(name: string, cat: Catalogue) {
    exists a :: InCatalogue(a, cat) && a.name == name
  }

  /** A page load keeps the session consistent with the catalogue. */
  lemma RunStaysConsistent(s: Session, weather: Record, available: int, cat: Catalogue,
                           button: Button, initialDraw: nat, rejectDraw: nat)
    requires Consistent(s, cat)
    ensures Consistent(Run(s, weather, available, cat, button, initialDraw, rejectDraw), cat)
  {
    var goodWeather := IsGoodWeather(weather.rain);
    var current :=
      if s.current.Unset? then Stored(SuggestTask(goodWeather, available, cat, s.history, initialDraw))
      else s.current;
    var loaded := Session(s.history, current);
    assert Consistent(loaded, cat);
    if current.task.Some? && button.IsReject() {
      var rejected := current.task.value;
      assert NamedInCatalogue(rejected.name, cat);
      var next := Reject(loaded, goodWeather, available, cat, rejectDraw);
      assert next.history == s.history + [rejected.name];
      assert Consistent(next, cat);
    }
  }

  /** What happens on one page load: the weather record, the budget, the button, the two draws. */
  datatype Load = Load(weather: Record, available: int, button: Button, initialDraw: nat, rejectDraw: nat)

  /** The session after a sequence of page loads. */
  function Replay(s: Session, cat: Catalogue, loads: seq<Load>): Session
    decreases |loads|
  {
    if |loads| == 0 then s
    else
      var x := loads[0];
      Replay(Run(s, x.weather, x.available, cat, x.button, x.initialDraw, x.rejectDraw), cat, loads[1..])
  }

  /**
   Over any sequence of page loads the session stays consistent with the catalogue, and the
   history only grows, by at most one name per load.
   */
  lemma {:induction false} ReplayStaysConsistent(s: Session, cat: Catalogue, loads: seq<Load>)
    requires Consistent(s, cat)
    ensures Consistent(Replay(s, cat, loads), cat)
    ensures s.history <= Replay(s, cat, loads).history
    ensures |Replay(s, cat, loads).history| <= |s.history| + |loads|
    decreases |loads|
  {
    if |loads| > 0 {
      var x := loads[0];
      var next := Run(s, x.weather, x.available, cat, x.button, x.initialDraw, x.rejectDraw);
      RunStaysConsistent(s, x.weather, x.available, cat, x.button, x.initialDraw, x.rejectDraw);
      ReplayStaysConsistent(next, cat, loads[1..]);
    }
  }

  /**
   From a first visit, any sequence of page loads keeps the session consistent with the
   catalogue and turns down at most one name per load.
   */
  lemma ReplayFromFresh(cat: Catalogue, loads: seq<Load>)
    ensures Consistent(Replay(Fresh, cat, loads), cat)
    ensures |Replay(Fresh, cat, loads).history| <= |loads|
  {
    ReplayStaysConsistent(Fresh, cat, loads);
  }
}

=== FILE: beta_weather.dfy ===
/**
 The later weather module, `_versions/beta/weather.py`: every extraction catches its own errors
 and falls back to `None`, so `procesar_datos_clima` always returns a record.
 */
module BetaWeather {
  import opened Base
  import opened Forecast
  import Seqs
  import Text

  /**
   `obtener_temperaturas`: `(maxima, minima)` of the daily `temperatura` object; `(None, None)`
   when either key is missing or `temperatura` is not an object (the KeyError or TypeError it
   catches).
   */
  function Temperatures(day: Day): (r: (Option<Reading>, Option<Reading>))
    ensures r.0.Some? <==> r.1.Some?
    ensures r.0.Some? <==> (day.temperatura.Some? && day.temperatura.value.Range?
                            && day.temperatura.value.maxima.Some? && day.temperatura.value.minima.Some?)
    ensures r.0.Some? ==> day.temperatura == Some(Range(r.0, r.1))
  {
    match day.temperatura
    case Some(Range(Some(high), Some(low))) => (Some(high), Some(low))
    case _ => (None, None)
  }

  /** The entry's `periodo`, read with `int()`, is the hour. */
  predicate ForHour(e: PeriodEntry, hour: int) {
    e.periodo.Some? && Text.ParseInt(e.periodo.value) == Some(hour)
  }

  /** The scan goes past the entry: it has no `periodo`, or one that reads as another hour. */
  predicate PassesHour(e: PeriodEntry, hour: int) {
    e.periodo.None? || (Text.ParseInt(e.periodo.value).Some? && Text.ParseInt(e.periodo.value) != Some(hour))
  }

  /**
   `obtener_temperatura_actual` with the hour as a parameter: the `value` of the first hourly
   entry for the hour. Entries without `periodo` are skipped; a `periodo` that `int()` rejects
   raises ValueError, which ends the scan with `None`.
   */
  function CurrentTemperature(day: Day, hour: int): (r: Option<Reading>)
    ensures r.Some? ==> day.temperatura.Some? && day.temperatura.value.Hourly?
    ensures r.Some? ==> var es := day.temperatura.value.entries;
              exists i :: 0 <= i < |es| && ForHour(es[i], hour) && es[i].value == r
                          && forall j :: 0 <= j < i ==> PassesHour(es[j], hour)
    ensures day.temperatura.Some? && day.temperatura.value.Hourly? ==>
              var es := day.temperatura.value.entries;
              forall i :: (0 <= i < |es| && ForHour(es[i], hour) && es[i].value.Some?
                           && (forall j :: 0 <= j < i ==> PassesHour(es[j], hour))) ==> r == es[i].value
  {
    match day.temperatura
    case Some(Hourly(es)) =>
      var stop := (e: PeriodEntry) => !PassesHour(e, hour);
      var k := Seqs.FindFirst(es, stop);
      if k < |es| && ForHour(es[k], hour) then es[k].value else None
    case _ => None
  }

  /**
   `obtener_estado_cielo_mas_frecuente`: the most frequent non-empty sky description of the day
   (the first one seen among equally frequent ones); `None` when there is none.
   */
  function MostFrequentSky(day: Day): (r: Option<string>)
    ensures var es := day.estadoCielo.GetOr([]);
            r.None? <==> forall j :: 0 <= j < |es| ==> !HasDescription(es[j])
    ensures r.Some? ==> var ds := Descriptions(day.estadoCielo.GetOr([]));
              r.value != "" && r.value in ds
              && forall j :: 0 <= j < |ds| ==> Seqs.Count(ds, ds[j]) <= Seqs.Count(ds, r.value)
    ensures r.Some? ==> var es := day.estadoCielo.GetOr([]);
              forall j :: 0 <= j < |es| && HasDescription(es[j]) ==>
                Occurrences(es, es[j].descripcion.value) <= Occurrences(es, r.value)
  {
    var es := day.estadoCielo.GetOr([]);
    MostCommonCountsEntries(es);
    Seqs.MostCommon(Descriptions(es))
  }

  /** The most common description is, counted over the entries themselves, the most frequent one. */
  lemma MostCommonCountsEntries(es: seq<PeriodEntry>)
    ensures Seqs.MostCommon(Descriptions(es)).Some? ==>
              forall j :: 0 <= j < |es| && HasDescription(es[j]) ==>
                Occurrences(es, es[j].descripcion.value) <= Occurrences(es, Seqs.MostCommon(Descriptions(es)).value)
  {
    forall j | 0 <= j < |es| && HasDescription(es[j])
      ensures Occurrences(es, es[j].descripcion.value) <= Occurrences(es, Seqs.MostCommon(Descriptions(es)).value)
    {
      BeatsEntry(es, j);
    }
  }

  /** The most common description occurs, among the entries, at least as often as entry `j`'s. */
  lemma BeatsEntry(es: seq<PeriodEntry>, j: nat)
    requires j < |es| && HasDescription(es[j])
    ensures Seqs.MostCommon(Descriptions(es)).Some?
    ensures Occurrences(es, es[j].descripcion.value) <= Occurrences(es, Seqs.MostCommon(Descriptions(es)).value)
  {
    var ds := Descriptions(es);
    var d := es[j].descripcion.value;
    assert d in ds;
    Seqs.MostCommonBeatsEvery(ds, d);
    var best := Seqs.MostCommon(ds).value;
    assert best in ds;
    DescriptionsCount(es, d);
    DescriptionsCount(es, best);
  }

  /** The `clave` argument: `'estadoCielo'`, `'viento'`, or anything else (`'probPrecipitacion'`). */
  datatype Key = SkyKey | WindKey | OtherKey

  /** The field `obtener_dato_por_bloque` returns for a matching entry. */
  function FieldOf(e: PeriodEntry, key: Key): Option<Reading> {
    match key
    case SkyKey => if e.descripcion.Some? then Some(Str(e.descripcion.value)) else None
    case WindKey => e.velocidad
    case OtherKey => e.value
  }

  /** The entry belongs to the block: `dato.get('periodo') == bloque`. */
  function InBlock(block: string): PeriodEntry -> bool {
    (e: PeriodEntry) => e.periodo == Some(block)
  }

  /**
   `obtener_dato_por_bloque`: the `key` field of the first entry of the block; `None` when no
   entry belongs to the block (or that entry lacks the field).
   */
  function LookupByBlock(datos: seq<PeriodEntry>, block: string, key: Key): (r: Option<Reading>)
    ensures forall i :: Seqs.IsFirst(datos, InBlock(block), i) ==> r == FieldOf(datos[i], key)
    ensures (forall i :: 0 <= i < |datos| ==> datos[i].periodo != Some(block)) ==> r.None?
  {
    var k := Seqs.FindFirst(datos, InBlock(block));
    assert forall i :: Seqs.IsFirst(datos, InBlock(block), i) ==> i == k by {
      forall i | Seqs.IsFirst(datos, InBlock(block), i) {
        Seqs.FirstIsUnique(datos, InBlock(block), i);
      }
    }
    if k < |datos| then FieldOf(datos[k], key) else None
  }

  /**
   `procesar_datos_clima` with the hour as a parameter. Both forecasts must be fetched, or every
   field is `None`. The daily forecast gives the temperature range and the sky; the hourly one
   gives the current temperature and, when the hour has a block, the wind and the rain.
   */
  function ProcessWeather(daily: Response, hourly: Response, hour: int): (r: Record)
    ensures !Fetched(daily) || !Fetched(hourly) ==> r == Unknown
    ensures r.maxTemp.Some? <==> r.minTemp.Some?
    ensures r.maxTemp.Some? || r.sky.Some? ==> Today(daily).Some?
    ensures r.sky.Some? ==> r.sky.value.Str? && r.sky.value.s != ""
    ensures r.currentTemp.Some? ==> Today(hourly).Some?
    ensures r.wind.Some? || r.rain.Some? ==> Today(hourly).Some? && 0 <= hour < 24
    ensures Fetched(daily) && Fetched(hourly) && Today(daily).Some? ==>
              var d := Today(daily).value;
              && (r.maxTemp, r.minTemp) == Temperatures(d)
              && (r.sky.Some? <==> MostFrequentSky(d).Some?)
              && (r.sky.Some? ==> r.sky.value == Str(MostFrequentSky(d).value))
    ensures Fetched(daily) && Fetched(hourly) && Today(hourly).Some? ==>
              var h := Today(hourly).value;
              && r.currentTemp == CurrentTemperature(h, hour)
              && (TimeBlock(hour).Some? ==>
                    && r.wind == LookupByBlock(h.viento.GetOr([]), TimeBlock(hour).value, WindKey)
                    && r.rain == LookupByBlock(h.probPrecipitacion.GetOr([]), TimeBlock(hour).value, OtherKey))
  {
    if !Fetched(daily) || !Fetched(hourly) then Unknown
    else
      var (high, low, sky) :=
        match Today(daily)
        case None => (None, None, None)
        case Some(d) =>
          var (high, low) := Temperatures(d);
          var sky := MostFrequentSky(d);
          (high, low, if sky.Some? then Some(Str(sky.value)) else None);
      var (now, wind, rain) :=
        match Today(hourly)
        case None => (None, None, None)
        case Some(h) =>
          var block := TimeBlock(hour);
          var now := CurrentTemperature(h, hour);
          if block.Some? then
            (now, LookupByBlock(h.viento.GetOr([]), block.value, WindKey),
             LookupByBlock(h.probPrecipitacion.GetOr([]), block.value, OtherKey))
          else (now, None, None);
      Record(high, low, sky, now, wind, rain)
  }
}

=== FILE: forecast.dfy ===
/**
 The shape of an AEMET municipal forecast as the two weather modules read it, the six-hour
 blocks of the day, and the six-field weather record they both return.
 */
module Forecast {
  import opened Base
  import Seqs
  import Text

  /** A JSON leaf value of the forecast: a number or a string. */
  datatype Reading = Num(n: int) | Str(s: string)

  /**
   One entry of a per-period list (`estadoCielo`, `viento`, `probPrecipitacion`, or the hourly
   `temperatura`); every key may be absent.
   */
  datatype PeriodEntry = PeriodEntry(periodo: Option<string>, descripcion: Option<string>,
                                     velocidad: Option<Reading>, value: Option<Reading>)

  /**
   The `temperatura` key: an object with `maxima` and `minima` in the daily forecast, a list of
   per-hour entries in the hourly one.
   */
  datatype Temperature = Range(maxima: Option<Reading>, minima: Option<Reading>)
                       | Hourly(entries: seq<PeriodEntry>)

  /** `prediccion.dia[0]`: the forecast for today; every key may be absent. */
  datatype Day = Day(temperatura: Option<Temperature>, estadoCielo: Option<seq<PeriodEntry>>,
                     viento: Option<seq<PeriodEntry>>, probPrecipitacion: Option<seq<PeriodEntry>>)

  /** One element of the downloaded list; `dia` is absent when `prediccion` or `dia` is missing. */
  datatype Prediction = Prediction(dia: Option<seq<Day>>)

  /** What `obtener_prediccion` returns: the downloaded list, or `None` when a request failed. */
  type Response = Option<seq<Prediction>>

  /** Python truthiness of the response: present and non-empty. */
  predicate Fetched(resp: Response) {
    resp.Some? && |resp.value| > 0
  }

  /** `clima[0]['prediccion']['dia'][0]`, or `None` where Python raises IndexError or KeyError. */
  function Today(resp: Response): (day: Option<Day>)
    ensures day.Some? ==> Fetched(resp)
    ensures day.Some? <==> Fetched(resp) && resp.value[0].dia.Some? && |resp.value[0].dia.value| > 0
  {
    if Fetched(resp) && resp.value[0].dia.Some? && |resp.value[0].dia.value| > 0
    then Some(resp.value[0].dia.value[0])
    else None
  }

  /**
   The weather record both `procesar_datos_clima` variants return; every one of its six keys is
   always present, with `None` where nothing was found.
   */
  datatype Record = Record(maxTemp: Option<Reading>, minTemp: Option<Reading>,
                           sky: Option<Reading>, currentTemp: Option<Reading>,
                           wind: Option<Reading>, rain: Option<Reading>)

  /** The record with every field `None`. */
  const Unknown: Record := Record(None, None, None, None, None, None)

  // ---------------------------------------------------------------------------------------
  // Six-hour blocks

  /** `bloques = [(0, 6), (6, 12), (12, 18), (18, 24)]`. */
  const Blocks: seq<(nat, nat)> := [(0, 6), (6, 12), (12, 18), (18, 24)]

  /** `f"{inicio:02d}-{fin:02d}"`. */
  function BlockLabel(lo: nat, hi: nat): string
    requires lo < 100 && hi < 100
  {
    Text.Pad2(lo) + "-" + Text.Pad2(hi)
  }

  /**
   `obtener_bloque_tiempo`: the label of the block holding `hour`, scanning the blocks in order;
   `None` when no block holds it.
   */
  function TimeBlock(hour: int): (r: Option<string>)
    ensures r.Some? <==> 0 <= hour < 24
  {
    var k := Seqs.FindFirst(Blocks, (b: (nat, nat)) => b.0 <= hour < b.1);
    if k < |Blocks| then Some(BlockLabel(Blocks[k].0, Blocks[k].1)) else None
  }

  /** The block of an hour of the day is the six-hour window starting at the last multiple of six. */
  lemma TimeBlockIsSixHourWindow(hour: int)
    requires 0 <= hour < 24
    ensures TimeBlock(hour) == Some(BlockLabel(6 * (hour / 6), 6 * (hour / 6) + 6))
  {
  }

  /** Reads a block label `"ii-ff"` back into its bounds. */
  function ParseBlock(s: string): Option<(int, int)> {
    if |s| != 5 || s[2] != '-' then None
    else
      match (Text.ParseInt(s[..2]), Text.ParseInt(s[3..]))
      case (Some(lo), Some(hi)) => Some((lo, hi))
      case _ => None
  }

  /** A block label reads back as the bounds it was printed from. */
  lemma BlockLabelRoundTrip(lo: nat, hi: nat)
    requires lo < 100 && hi < 100
    ensures ParseBlock(BlockLabel(lo, hi)) == Some((lo, hi))
  {
    var s := BlockLabel(lo, hi);
    assert s[..2] == Text.Pad2(lo);
    assert s[3..] == Text.Pad2(hi);
    Text.Pad2RoundTrip(lo);
    Text.Pad2RoundTrip(hi);
  }

  /**
   The label names the block: read back, it gives a six-hour window holding the hour, which
   starts at a multiple of six.
   */
  lemma TimeBlockRoundTrip(hour: int)
    requires 0 <= hour < 24
    ensures TimeBlock(hour).Some?
    ensures var b := ParseBlock(TimeBlock(hour).value);
            b.Some? && b.value.0 <= hour < b.value.1 && b.value.1 == b.value.0 + 6 && b.value.0 % 6 == 0
  {
    var q := hour / 6;
    assert 0 <= q < 4 && 6 * q <= hour < 6 * q + 6;
    var lo := 6 * q;
    assert lo % 6 == 0;
    TimeBlockIsSixHourWindow(hour);
    BlockLabelRoundTrip(lo, lo + 6);
    assert ParseBlock(TimeBlock(hour).value) == Some((lo, lo + 6));
  }

  /** Two hours of the day share a block exactly when they fall in the same six-hour window. */
  lemma SameBlockIffSameWindow(h1: int, h2: int)
    requires 0 <= h1 < 24 && 0 <= h2 < 24
    ensures TimeBlock(h1) == TimeBlock(h2) <==> h1 / 6 == h2 / 6
  {
    TimeBlockIsSixHourWindow(h1);
    TimeBlockIsSixHourWindow(h2);
    BlockLabelRoundTrip(6 * (h1 / 6), 6 * (h1 / 6) + 6);
    BlockLabelRoundTrip(6 * (h2 / 6), 6 * (h2 / 6) + 6);
  }

  // ---------------------------------------------------------------------------------------
  // Sky descriptions

  /** The entry carries a description Python finds truthy: present and non-empty. */
  predicate HasDescription(e: PeriodEntry) {
    e.descripcion.Some? && e.descripcion.value != ""
  }

  /** How many entries carry exactly the description `d`. */
  function Occurrences(entries: seq<PeriodEntry>, d: string): nat {
    if |entries| == 0 then 0
    else (if entries[0].descripcion == Some(d) then 1 else 0) + Occurrences(entries[1..], d)
  }

  /**
   `[p.get('descripcion', '') for p in entries if p.get('descripcion')]`: the non-empty
   descriptions, in order.
   */
  function Descriptions(entries: seq<PeriodEntry>): (ds: seq<string>)
    ensures forall i :: 0 <= i < |ds| ==> ds[i] != ""
    ensures forall i :: 0 <= i < |ds| ==> exists j :: 0 <= j < |entries| && entries[j].descripcion == Some(ds[i])
    ensures forall j {:trigger HasDescription(entries[j])} ::
              0 <= j < |entries| && HasDescription(entries[j]) ==> entries[j].descripcion.value in ds
    ensures |ds| == 0 <==> forall j :: 0 <= j < |entries| ==> !HasDescription(entries[j])
  {
    if |entries| == 0 then []
    else
      var rest := Descriptions(entries[1..]);
      assert forall j :: 1 <= j < |entries| ==> entries[j] == entries[1..][j - 1];
      if HasDescription(entries[0]) then [entries[0].descripcion.value] + rest else rest
  }

  /**
   The list keeps the entries' order: the descriptions of a concatenation are those of each
   part in turn.
   */
  lemma {:induction false} DescriptionsInOrder(a: seq<PeriodEntry>, b: seq<PeriodEntry>)
    ensures Descriptions(a + b) == Descriptions(a) + Descriptions(b)
    decreases |a|
  {
    if |a| == 0 {
      Seqs.AppendEmpty(b);
      assert Descriptions(a) == [];
      Seqs.AppendEmpty(Descriptions(b));
    } else {
      DescriptionsInOrder(a[1..], b);
      DescriptionsInOrderStep(a, b);
    }
  }

  /** The step of `DescriptionsInOrder`: prepending one entry to `a` keeps the property. */
  lemma DescriptionsInOrderStep(a: seq<PeriodEntry>, b: seq<PeriodEntry>)
    requires |a| > 0
    requires Descriptions(a[1..] + b) == Descriptions(a[1..]) + Descriptions(b)
    ensures Descriptions(a + b) == Descriptions(a) + Descriptions(b)
  {
    assert Descriptions(a + b) == Descriptions(a) + Descriptions(b) by {
      var ab := a + b;
      var head := if HasDescription(a[0]) then [a[0].descripcion.value] else [];
      var (rest, db) := (Descriptions(a[1..]), Descriptions(b));
      assert Descriptions(ab) == head + (rest + db) by {
        Seqs.AppendTail(a, b);
        DescriptionsUnfold(ab);
      }
      assert Descriptions(a) == head + rest by {
        DescriptionsUnfold(a);
      }
      Seqs.AppendAssociative(head, rest, db);
    }
  }

  /** The first entry's description, if it has one, followed by those of the rest. */
  lemma DescriptionsUnfold(s: seq<PeriodEntry>)
    requires |s| > 0
    ensures Descriptions(s)
            == (if HasDescription(s[0]) then [s[0].descripcion.value] else []) + Descriptions(s[1..])
  {
  }

  /** One entry contributes its description exactly when it has one. */
  lemma DescriptionsOfOne(e: PeriodEntry)
    ensures Descriptions([e]) == if HasDescription(e) then [e.descripcion.value] else []
  {
    assert [e][1..] == [];
  }

  /** Every non-empty description appears in the list as many times as the entries carry it. */
  lemma {:induction false} DescriptionsCount(entries: seq<PeriodEntry>, d: string)
    requires d != ""
    ensures multiset(Descriptions(entries))[d] == Occurrences(entries, d)
    decreases |entries|
  {
    if |entries| > 0 {
      DescriptionsCount(entries[1..], d);
      var rest := Descriptions(entries[1..]);
      if HasDescription(entries[0]) {
        assert multiset([entries[0].descripcion.value] + rest)
               == multiset([entries[0].descripcion.value]) + multiset(rest);
      }
    }
  }
}

=== FILE: geolocation.dfy ===
/**
 `geolocation.py`: from coordinates to a municipality name through a reverse-geocoding
 answer, and from the name to its AEMET code through the municipality table.
 */
module Geolocation {
  import opened Base
  import Seqs

  /** One element of `address_components`: its `long_name` and its `types`. */
  datatype AddressComponent = AddressComponent(longName: string, types: seq<string>)

  /** One element of the geocoding `results`. */
  datatype GeocodeResult = GeocodeResult(components: seq<AddressComponent>)

  /** One row of `municipios_aemet.csv`: the `municipio` name and the `id` code. */
  datatype MunicipioRow = MunicipioRow(municipio: string, id: string)

  /** What the geolocation request answers: a latitude and a longitude. */
  datatype Coordinates = Coordinates(lat: real, lng: real)

  const Locality: string := "locality"
  const AdminLevel4: string := "administrative_area_level_4"
  const AdminLevel3: string := "administrative_area_level_3"

  /** `t in component['types']`. */
  function HasType(t: string): AddressComponent -> bool {
    (c: AddressComponent) => t in c.types
  }

  /** The `long_name` of the first component of type `t`, if any. */
  function FirstOfType(cs: seq<AddressComponent>, t: string): (r: Option<string>)
    ensures r.None? <==> !Seqs.Any(cs, HasType(t))
    ensures forall i :: Seqs.IsFirst(cs, HasType(t), i) ==> r == Some(cs[i].longName)
  {
    var k := Seqs.FindFirst(cs, HasType(t));
    assert forall i :: Seqs.IsFirst(cs, HasType(t), i) ==> i == k by {
      forall i | Seqs.IsFirst(cs, HasType(t), i) {
        Seqs.FirstIsUnique(cs, HasType(t), i);
      }
    }
    if k < |cs| then Some(cs[k].longName) else None
  }

  /**
   The name choice of `obtener_municipio`, given the geocoding answer (`None` when the request
   did not return status 200): in the components of the first result, the first `locality`,
   else the first `administrative_area_level_4`, else the first `administrative_area_level_3`.
   */
  function Municipality(reply: Option<seq<GeocodeResult>>): (r: Option<string>)
    ensures reply.None? || |reply.value| == 0 ==> r.None?
    ensures reply.Some? && |reply.value| > 0 ==>
              var cs := reply.value[0].components;
              && (forall i :: Seqs.IsFirst(cs, HasType(Locality), i) ==> r == Some(cs[i].longName))
              && (!Seqs.Any(cs, HasType(Locality)) ==>
                    forall i :: Seqs.IsFirst(cs, HasType(AdminLevel4), i) ==> r == Some(cs[i].longName))
              && (!Seqs.Any(cs, HasType(Locality)) && !Seqs.Any(cs, HasType(AdminLevel4)) ==>
                    forall i :: Seqs.IsFirst(cs, HasType(AdminLevel3), i) ==> r == Some(cs[i].longName))
              && (r.None? <==> !Seqs.Any(cs, HasType(Locality)) && !Seqs.Any(cs, HasType(AdminLevel4))
                                && !Seqs.Any(cs, HasType(AdminLevel3)))
  {
    match reply
    case None => None
    case Some(results) =>
      if |results| == 0 then None
      else
        var cs := results[0].components;
        var locality := FirstOfType(cs, Locality);
        if locality.Some? then locality
        else
          var level4 := FirstOfType(cs, AdminLevel4);
          if level4.Some? then level4 else FirstOfType(cs, AdminLevel3)
  }

  /** A component of type `locality` wins over every administrative area, wherever it appears. */
  lemma LocalityWins(results: seq<GeocodeResult>, i: nat)
    requires |results| > 0 && i < |results[0].components|
    requires Locality in results[0].components[i].types
    ensures var r := Municipality(Some(results));
            r.Some? && exists j :: 0 <= j <= i && Locality in results[0].components[j].types
                                   && r.value == results[0].components[j].longName
  {
  }

  /** `codigo[2:]`: the code without its first two characters (empty when it is shorter). */
  function DropTwo(id: string): (r: string)
    ensures |r| == if |id| >= 2 then |id| - 2 else 0
    ensures |id| >= 2 ==> id == id[..2] + r
  {
    if |id| >= 2 then id[2..] else ""
  }

  /** The row names the municipality. */
  function Named(name: string): MunicipioRow -> bool {
    (row: MunicipioRow) => row.municipio == name
  }

  /**
   `obtener_codigo_municipio`: the `id` of the first row with the name, without its first two
   characters; `None` when no row has the name.
   */
  function MunicipalityCode(table: seq<MunicipioRow>, name: string): (r: Option<string>)
    ensures r.None? <==> forall i :: 0 <= i < |table| ==> table[i].municipio != name
    ensures forall i :: Seqs.IsFirst(table, Named(name), i) ==> r == Some(DropTwo(table[i].id))
  {
    var k := Seqs.FindFirst(table, Named(name));
    assert forall i :: Seqs.IsFirst(table, Named(name), i) ==> i == k by {
      forall i | Seqs.IsFirst(table, Named(name), i) {
        Seqs.FirstIsUnique(table, Named(name), i);
      }
    }
    if k < |table| then Some(DropTwo(table[k].id)) else None
  }

  /**
   The step succeeded in Python's sense: it produced a value that is truthy (a non-empty
   string).
   */
  predicate Truthy(v: Option<string>) {
    v.Some? && v.value != ""
  }

  /**
   `get_user_location`, given the geolocation answer (`None` when the request did not return
   status 200) and the geocoding answer for those coordinates: the name and the code when
   every step yields a truthy value (coordinates both nonzero), `(None, None)` otherwise.
   */
  function UserLocation(fix: Option<Coordinates>, reply: Option<seq<GeocodeResult>>,
                        table: seq<MunicipioRow>): (r: (Option<string>, Option<string>))
    ensures r.0.Some? <==> r.1.Some?
    ensures r.0.Some? <==>
              && fix.Some? && fix.value.lat != 0.0 && fix.value.lng != 0.0
              && Truthy(Municipality(reply))
              && Truthy(MunicipalityCode(table, Municipality(reply).value))
    ensures r.0.Some? ==> r.0 == Municipality(reply) && r.1 == MunicipalityCode(table, r.0.value)
  {
    if fix.Some? && fix.value.lat != 0.0 && fix.value.lng != 0.0 then
      var name := Municipality(reply);
      if Truthy(name) then
        var code := MunicipalityCode(table, name.value);
        if Truthy(code) then (name, code) else (None, None)
      else (None, None)
    else (None, None)
  }

  /** A location is returned only for a name some table row has, and its code comes from that table. */
  lemma LocationIsInTable(fix: Option<Coordinates>, reply: Option<seq<GeocodeResult>>,
                          table: seq<MunicipioRow>)
    requires UserLocation(fix, reply, table).0.Some?
    ensures var (name, code) := UserLocation(fix, reply, table);
            exists i :: 0 <= i < |table| && table[i].municipio == name.value
                        && code.value == DropTwo(table[i].id)
  {
  }
}

=== FILE: seqs.dfy ===
/**
 Generic sequence operations the recommender is built from: a boolean-mask filter, a first-match
 scan, a uniform draw (`sample(n=1)`), and the most common element (`Counter.most_common(1)`).
 */
module Seqs {
  import opened Base

  /** `i` is the position of the first element of `s` satisfying `p`. */
  ghost predicate IsFirst<T>(s: seq<T>, p: T -> bool, i: int) {
    0 <= i < |s| && p(s[i]) && forall j :: 0 <= j < i ==> !p(s[j])
  }

  /** Some element of `s` satisfies `p`. */
  ghost predicate Any<T>(s: seq<T>, p: T -> bool) {
    exists i :: 0 <= i < |s| && p(s[i])
  }

  /** The elements of `s` satisfying `p`, in order: what a pandas boolean mask keeps. */
  function Filter<T>(s: seq<T>, p: T -> bool): (r: seq<T>)
    ensures |r| <= |s|
    ensures forall i :: 0 <= i < |r| ==> r[i] in s && p(r[i])
    ensures forall i :: 0 <= i < |s| && p(s[i]) ==> s[i] in r
  {
    if |s| == 0 then []
    else if p(s[0]) then [s[0]] + Filter(s[1..], p)
    else Filter(s[1..], p)
  }

  /** A filter whose predicate holds everywhere keeps the whole sequence. */
  lemma {:induction false} FilterKeepsAll<T>(s: seq<T>, p: T -> bool)
    requires forall i :: 0 <= i < |s| ==> p(s[i])
    ensures Filter(s, p) == s
  {
    if |s| > 0 {
      FilterKeepsAll(s[1..], p);
    }
  }

  /** Position of the first element satisfying `p`, or `|s|` when there is none. */
  function FindFirst<T>(s: seq<T>, p: T -> bool): (i: nat)
    ensures i <= |s|
    ensures i < |s| ==> IsFirst(s, p, i)
    ensures i == |s| <==> !Any(s, p)
  {
    if |s| == 0 then 0
    else if p(s[0]) then 0
    else
      var k := FindFirst(s[1..], p);
      assert forall j :: 1 <= j < |s| ==> s[j] == s[1..][j - 1];
      1 + k
  }

  /** The first match is unique: any position that is a first match is the one `FindFirst` finds. */
  lemma FirstIsUnique<T>(s: seq<T>, p: T -> bool, i: int)
    requires IsFirst(s, p, i)
    ensures FindFirst(s, p) == i
  {
  }

  /**
   One element of `s` picked at random, or `None` when `s` is empty. The random source is the
   parameter `draw`; the model promises nothing about the distribution.
   */
  function Sample<T>(s: seq<T>, draw: nat): (r: Option<T>)
    ensures r.None? <==> |s| == 0
    ensures r.Some? ==> r.value in s
  {
    if |s| == 0 then None else Some(s[draw % |s|])
  }

  /** Every element of `s` is the result of some draw: the draw is a free choice among all of them. */
  lemma SampleReachesEvery<T>(s: seq<T>, x: T)
    requires x in s
    ensures exists draw: nat :: Sample(s, draw) == Some(x)
  {
    var i :| 0 <= i < |s| && s[i] == x;
    assert i % |s| == i;
    assert Sample(s, i) == Some(x);
  }

  /** Number of occurrences of `x` in `s`. */
  function Count<T(==)>(s: seq<T>, x: T): nat {
    multiset(s)[x]
  }

  /**
   Scan from position `i` keeping `best`, the first position whose count is maximal among
   positions before `i`.
   */
  function MostCommonFrom<T(==)>(s: seq<T>, i: nat, best: nat): (k: nat)
    requires best < i <= |s|
    requires forall j :: 0 <= j < i ==> Count(s, s[j]) <= Count(s, s[best])
    requires forall j :: 0 <= j < best ==> Count(s, s[j]) < Count(s, s[best])
    ensures k < |s|
    ensures forall j :: 0 <= j < |s| ==> Count(s, s[j]) <= Count(s, s[k])
    ensures forall j :: 0 <= j < k ==> Count(s, s[j]) < Count(s, s[k])
    decreases |s| - i
  {
    if i == |s| then best
    else if Count(s, s[i]) > Count(s, s[best]) then MostCommonFrom(s, i + 1, i)
    else MostCommonFrom(s, i + 1, best)
  }

  /**
   `Counter(s).most_common(1)[0][0]`: an element of maximal count; among equally frequent
   elements, the one that occurs first (a Counter keeps first-insertion order and `max` keeps
   the first maximum). `None` for an empty sequence.
   */
  function MostCommon<T(==)>(s: seq<T>): (r: Option<T>)
    ensures r.None? <==> |s| == 0
    ensures r.Some? ==> r.value in s
    ensures r.Some? ==> forall j :: 0 <= j < |s| ==> Count(s, s[j]) <= Count(s, r.value)
    ensures r.Some? ==> exists k :: 0 <= k < |s| && s[k] == r.value
                                 && forall j :: 0 <= j < k ==> Count(s, s[j]) < Count(s, s[k])
  {
    if |s| == 0 then None
    else
      var k := MostCommonFrom(s, 1, 0);
      Some(s[k])
  }

  /** No element of `s` occurs more often than the most common one. */
  lemma MostCommonBeatsEvery<T>(s: seq<T>, x: T)
    requires x in s
    ensures MostCommon(s).Some? && Count(s, x) <= Count(s, MostCommon(s).value)
  {
    var k :| 0 <= k < |s| && s[k] == x;
  }

  /** The empty sequence is a left unit of concatenation. */
  lemma AppendEmpty<T>(x: seq<T>)
    ensures [] + x == x
  {
  }

  /** The head and the tail of a concatenation whose first part is not empty. */
  lemma AppendTail<T>(x: seq<T>, y: seq<T>)
    requires |x| > 0
    ensures (x + y)[0] == x[0] && (x + y)[1..] == x[1..] + y
  {
  }

  /** Concatenation is associative. */
  lemma AppendAssociative<T>(x: seq<T>, y: seq<T>, z: seq<T>)
    ensures x + (y + z) == (x + y) + z
  {
  }
}

=== FILE: text.dfy ===
/**
 Decimal text as Python prints and parses it: `str(n)`, `f"{n:02d}"` and `int(s)`.
 */
module Text {
  import opened Base

  predicate IsDigit(c: char) {
    '0' <= c <= '9'
  }

  /** A non-empty run of ASCII digits. */
  predicate IsDecimal(s: string) {
    |s| > 0 && forall i :: 0 <= i < |s| ==> IsDigit(s[i])
  }

  function DigitChar(d: nat): (c: char)
    requires d < 10
    ensures IsDigit(c) && DigitValue(c) == d
  {
    (('0' as int) + d) as char
  }

  function DigitValue(c: char): nat
    requires IsDigit(c)
  {
    (c as int) - ('0' as int)
  }

  /** The number a run of digits denotes, read most significant digit first. */
  function DecimalValue(s: string): nat
    requires forall i :: 0 <= i < |s| ==> IsDigit(s[i])
  {
    if |s| == 0 then 0 else DecimalValue(s[..|s| - 1]) * 10 + DigitValue(s[|s| - 1])
  }

  /** `str(n)` for a natural number: its shortest decimal representation. */
  function NatToDecimal(n: nat): (s: string)
    ensures IsDecimal(s)
  {
    if n < 10 then [DigitChar(n)] else NatToDecimal(n / 10) + [DigitChar(n % 10)]
  }

  /** `str(n)` for any integer: a minus sign before the digits of a negative number. */
  function IntToDecimal(n: int): (s: string)
    ensures |s| > 0
    ensures forall i :: 0 <= i < |s| ==> IsDigit(s[i]) || s[i] == '-'
  {
    if n < 0 then "-" + NatToDecimal(-n) else NatToDecimal(n)
  }

  /**
   `int(s)` on a string: an optional sign followed by ASCII digits; anything else is the
   ValueError Python raises, here `None`.
   */
  function ParseInt(s: string): Option<int> {
    if |s| > 0 && (s[0] == '-' || s[0] == '+') then
      if IsDecimal(s[1..]) then
        var v: int := DecimalValue(s[1..]);
        Some(if s[0] == '-' then -v else v)
      else None
    else if IsDecimal(s) then Some(DecimalValue(s))
    else None
  }

  /** Reading back the decimal text of a natural number gives the number. */
  lemma {:induction false} NatToDecimalRoundTrip(n: nat)
    ensures DecimalValue(NatToDecimal(n)) == n
  {
    if n >= 10 {
      var s := NatToDecimal(n);
      assert s[..|s| - 1] == NatToDecimal(n / 10);
      NatToDecimalRoundTrip(n / 10);
    }
  }

  /** `int(str(n)) == n` for every integer. */
  lemma IntToDecimalRoundTrip(n: int)
    ensures ParseInt(IntToDecimal(n)) == Some(n)
  {
    if n < 0 {
      assert IntToDecimal(n)[1..] == NatToDecimal(-n);
      NatToDecimalRoundTrip(-n);
    } else {
      NatToDecimalRoundTrip(n);
    }
  }

  /** `f"{n:02d}"` for `0 <= n < 100`: two digits, zero padded. */
  function Pad2(n: nat): (s: string)
    requires n < 100
    ensures |s| == 2 && IsDecimal(s)
  {
    [DigitChar(n / 10), DigitChar(n % 10)]
  }

  /** `int(f"{n:02d}") == n`: the padding loses nothing. */
  lemma Pad2RoundTrip(n: nat)
    requires n < 100
    ensures ParseInt(Pad2(n)) == Some(n)
  {
    var s := Pad2(n);
    assert s[..1] == [DigitChar(n / 10)];
    assert DecimalValue(s[..1]) == n / 10;
  }
}

=== FILE: weather.dfy ===
/**
 The first weather module, `weather.py`: lookups index the forecast directly, so a missing key
 raises, and a lookup that finds nothing returns the text "Información no disponible".
 */
module Weather {
  import opened Base
  import opened Forecast
  import Seqs
  import Text
  import BetaWeather

  /** The text shown when a forecast has no value for what was asked. */
  const Unavailable: string := "Información no disponible"

  const NotAvailable: Reading := Str(Unavailable)

  /**
   `obtener_temperaturas`: `(maxima, minima)` of the daily `temperatura` object; KeyError (or
   TypeError, for the hourly list) otherwise.
   */
  function Temperatures(day: Day): (r: Attempt<(Reading, Reading)>)
    ensures r.Done? <==> (day.temperatura.Some? && day.temperatura.value.Range?
                          && day.temperatura.value.maxima.Some? && day.temperatura.value.minima.Some?)
    ensures r.Done? ==> day.temperatura == Some(Range(Some(r.value.0), Some(r.value.1)))
  {
    match day.temperatura
    case Some(Range(Some(high), Some(low))) => Done((high, low))
    case _ => Raised
  }

  /** The entry's `periodo`, read with `int()`, is another hour: the scan goes on. */
  predicate OtherHour(e: PeriodEntry, hour: int) {
    e.periodo.Some? && Text.ParseInt(e.periodo.value).Some? && Text.ParseInt(e.periodo.value) != Some(hour)
  }

  /** The scan stops at the entry: it is for the hour, or reading its `periodo` raises. */
  function StopsAtHour(hour: int): PeriodEntry -> bool {
    (e: PeriodEntry) => !OtherHour(e, hour)
  }

  /**
   `obtener_temperatura_actual` with the hour as a parameter: the `value` of the first hourly
   entry for the hour, or "Información no disponible" when none is. A missing `temperatura`,
   `periodo` or `value`, or a `periodo` that `int()` rejects, raises. Given the daily object,
   the loop runs over its keys, so `'maxima'['periodo']` raises TypeError; an object with
   neither key leaves nothing to loop over.
   */
  function CurrentTemperature(day: Day, hour: int): (r: Attempt<Reading>)
    ensures day.temperatura.None? ==> r.Raised?
    ensures day.temperatura.Some? && day.temperatura.value.Range? ==>
              (r.Raised? <==> day.temperatura.value.maxima.Some? || day.temperatura.value.minima.Some?)
              && (r.Done? ==> r.value == NotAvailable)
    ensures day.temperatura.Some? && day.temperatura.value.Hourly? ==>
              var es := day.temperatura.value.entries;
              && ((forall j :: 0 <= j < |es| ==> OtherHour(es[j], hour)) ==> r == Done(NotAvailable))
              && forall i :: Seqs.IsFirst(es, StopsAtHour(hour), i) ==>
                   (r.Done? <==> es[i].periodo.Some? && Text.ParseInt(es[i].periodo.value) == Some(hour)
                                 && es[i].value.Some?)
                   && (r.Done? ==> Some(r.value) == es[i].value)
  {
    match day.temperatura
    case None => Raised
    case Some(Range(None, None)) => Done(NotAvailable)
    case Some(Range(_, _)) => Raised
    case Some(Hourly(es)) =>
      var k := Seqs.FindFirst(es, StopsAtHour(hour));
      if k == |es| then Done(NotAvailable)
      else if es[k].periodo.Some? && Text.ParseInt(es[k].periodo.value) == Some(hour) && es[k].value.Some?
      then Done(es[k].value.value)
      else Raised
  }

  /**
   `obtener_estado_cielo_mas_frecuente`: the most frequent non-empty sky description (the first
   one seen among equally frequent ones), "Información no disponible" when there is none;
   KeyError without `estadoCielo`.
   */
  function MostFrequentSky(day: Day): (r: Attempt<Reading>)
    ensures r.Raised? <==> day.estadoCielo.None?
    ensures (r.Done? && forall j :: 0 <= j < |day.estadoCielo.value| ==> !HasDescription(day.estadoCielo.value[j]))
            ==> r.value == NotAvailable
    ensures (r.Done? && exists j :: 0 <= j < |day.estadoCielo.value| && HasDescription(day.estadoCielo.value[j]))
            ==> var ds := Descriptions(day.estadoCielo.value);
                  r.value.Str? && r.value.s in ds
                  && forall j :: 0 <= j < |ds| ==> Seqs.Count(ds, ds[j]) <= Seqs.Count(ds, r.value.s)
    ensures (r.Done? && exists j :: 0 <= j < |day.estadoCielo.value| && HasDescription(day.estadoCielo.value[j]))
            ==> var es := day.estadoCielo.value;
                  forall j :: 0 <= j < |es| && HasDescription(es[j]) ==>
                    Occurrences(es, es[j].descripcion.value) <= Occurrences(es, r.value.s)
  {
    match day.estadoCielo
    case None => Raised
    case Some(es) =>
      BetaWeather.MostCommonCountsEntries(es);
      match Seqs.MostCommon(Descriptions(es))
      case Some(d) => Done(Str(d))
      case None => Done(NotAvailable)
  }

  /** The scan stops at the entry: it lacks `periodo` (KeyError) or belongs to the block. */
  function StopsAtBlock(block: Option<string>): PeriodEntry -> bool {
    (e: PeriodEntry) => e.periodo.None? || e.periodo == block
  }

  /**
   What a per-block lookup returns: `field` of the first entry whose `periodo` equals the block,
   "Información no disponible" when no entry does; an entry without `periodo` met first raises.
   */
  ghost predicate BlockLookup(entries: seq<PeriodEntry>, block: Option<string>,
                              field: PeriodEntry -> Reading, r: Attempt<Reading>) {
    && ((forall j :: 0 <= j < |entries| ==> entries[j].periodo.Some? && entries[j].periodo != block)
        ==> r == Done(NotAvailable))
    && forall i :: Seqs.IsFirst(entries, StopsAtBlock(block), i) ==>
         r == if entries[i].periodo.None? then Raised else Done(field(entries[i]))
  }

  /** The loop the three per-block lookups share. A block of `None` matches no entry. */
  function FirstInBlock(entries: seq<PeriodEntry>, block: Option<string>,
                        field: PeriodEntry -> Reading): (r: Attempt<Reading>)
    ensures BlockLookup(entries, block, field, r)
  {
    var k := Seqs.FindFirst(entries, StopsAtBlock(block));
    assert forall i :: Seqs.IsFirst(entries, StopsAtBlock(block), i) ==> i == k by {
      forall i | Seqs.IsFirst(entries, StopsAtBlock(block), i) {
        Seqs.FirstIsUnique(entries, StopsAtBlock(block), i);
      }
    }
    if k == |entries| then Done(NotAvailable)
    else if entries[k].periodo.None? then Raised
    else Done(field(entries[k]))
  }

  /** `descripcion`, or "Información no disponible" when the entry has none. */
  function SkyField(e: PeriodEntry): Reading {
    if e.descripcion.Some? then Str(e.descripcion.value) else NotAvailable
  }

  /** `velocidad`, or "Información no disponible" when the entry has none. */
  function WindField(e: PeriodEntry): Reading {
    e.velocidad.GetOr(NotAvailable)
  }

  /** `value`, or "Información no disponible" when the entry has none. */
  function RainField(e: PeriodEntry): Reading {
    e.value.GetOr(NotAvailable)
  }

  /** The field this module reads where the later revision reads the field named by `key`. */
  function FieldFor(key: BetaWeather.Key): PeriodEntry -> Reading {
    match key
    case SkyKey => SkyField
    case WindKey => WindField
    case OtherKey => RainField
  }

  /**
   The two revisions agree on well-formed data: when every entry before the block's first one
   has a `periodo` and that entry has the field, both return the field.
   */
  lemma BlockLookupsAgree(entries: seq<PeriodEntry>, block: string, key: BetaWeather.Key, i: nat)
    requires Seqs.IsFirst(entries, BetaWeather.InBlock(block), i)
    requires forall j :: 0 <= j < i ==> entries[j].periodo.Some?
    requires BetaWeather.FieldOf(entries[i], key).Some?
    ensures FirstInBlock(entries, Some(block), FieldFor(key)) == Done(BetaWeather.FieldOf(entries[i], key).value)
    ensures BetaWeather.LookupByBlock(entries, block, key) == BetaWeather.FieldOf(entries[i], key)
  {
  }

  /** `obtener_estado_cielo_por_bloque`: KeyError without `estadoCielo`. */
  function SkyByBlock(day: Day, block: Option<string>): (r: Attempt<Reading>)
    ensures day.estadoCielo.None? ==> r.Raised?
    ensures day.estadoCielo.Some? ==> BlockLookup(day.estadoCielo.value, block, SkyField, r)
  {
    match day.estadoCielo
    case None => Raised
    case Some(es) => FirstInBlock(es, block, SkyField)
  }

  /** `obtener_viento_por_bloque`: "Información no disponible", not an error, without `viento`. */
  function WindByBlock(day: Day, block: Option<string>): (r: Attempt<Reading>)
    ensures day.viento.None? ==> r == Done(NotAvailable)
    ensures day.viento.Some? ==> BlockLookup(day.viento.value, block, WindField, r)
  {
    match day.viento
    case None => Done(NotAvailable)
    case Some(es) => FirstInBlock(es, block, WindField)
  }

  /** `obtener_lluvia_por_bloque`: KeyError without `probPrecipitacion`. */
  function RainByBlock(day: Day, block: Option<string>): (r: Attempt<Reading>)
    ensures day.probPrecipitacion.None? ==> r.Raised?
    ensures day.probPrecipitacion.Some? ==> BlockLookup(day.probPrecipitacion.value, block, RainField, r)
  {
    match day.probPrecipitacion
    case None => Raised
    case Some(es) => FirstInBlock(es, block, RainField)
  }

  /** What the daily forecast contributes: its day and the range and sky read from it. */
  datatype DailyFields = DailyFields(day: Option<Day>, maxTemp: Option<Reading>,
                                     minTemp: Option<Reading>, sky: Option<Reading>)

  /**
   The `if clima_diario:` part: nothing when the daily forecast is absent; otherwise its day,
   with the range and the most frequent sky, or the first exception.
   */
  function DailyPart(daily: Response): (r: Attempt<DailyFields>)
    ensures !Fetched(daily) ==> r == Done(DailyFields(None, None, None, None))
    ensures Fetched(daily) && r.Done? ==>
              r.value.day == Today(daily) && r.value.day.Some?
              && r.value.maxTemp.Some? && r.value.minTemp.Some? && r.value.sky.Some?
    ensures Fetched(daily) && r.Done? ==>
              && Temperatures(r.value.day.value) == Done((r.value.maxTemp.value, r.value.minTemp.value))
              && MostFrequentSky(r.value.day.value) == Done(r.value.sky.value)
    ensures Fetched(daily) ==>
              (r.Raised? <==> Today(daily).None? || Temperatures(Today(daily).value).Raised?
                               || MostFrequentSky(Today(daily).value).Raised?)
  {
    if !Fetched(daily) then Done(DailyFields(None, None, None, None))
    else
      match Today(daily)
      case None => Raised
      case Some(d) =>
        match (Temperatures(d), MostFrequentSky(d))
        case (Done((high, low)), Done(sky)) => Done(DailyFields(Some(d), Some(high), Some(low), Some(sky)))
        case _ => Raised
  }

  /**
   `procesar_datos_clima` as written, with the hour as a parameter. The wind and the rain are
   looked up in `prediccion_diaria`, the daily day, which is unbound (UnboundLocalError) when
   the daily forecast was not fetched but the hourly one was.
   */
  function ProcessWeatherAsWritten(daily: Response, hourly: Response, hour: int): (r: Attempt<Record>)
    ensures !Fetched(daily) && !Fetched(hourly) ==> r == Done(Unknown)
    ensures !Fetched(daily) && Fetched(hourly) ==> r.Raised?
    ensures r.Done? && !Fetched(hourly) ==>
              r.value.currentTemp.None? && r.value.wind.None? && r.value.rain.None?
  {
    match DailyPart(daily)
    case Raised => Raised
    case Done(part) =>
      if !Fetched(hourly) then Done(Record(part.maxTemp, part.minTemp, part.sky, None, None, None))
      else
        match Today(hourly)
        case None => Raised
        case Some(h) =>
          var block := TimeBlock(hour);
          match CurrentTemperature(h, hour)
          case Raised => Raised
          case Done(now) =>
            match part.day
            case None => Raised
            case Some(d) =>
              match (WindByBlock(d, block), RainByBlock(d, block))
              case (Done(wind), Done(rain)) =>
                Done(Record(part.maxTemp, part.minTemp, part.sky, Some(now), Some(wind), Some(rain)))
              case _ => Raised
  }

  /**
   With both forecasts fetched, the call as written reads the current temperature from the
   hourly day but the wind and the rain from the daily day, and raises exactly when the daily
   part or one of these three readings does, or there is no hourly day for today.
   */
  lemma AsWrittenReadsWindAndRainFromDailyDay(daily: Response, hourly: Response, hour: int)
    requires Fetched(daily) && Fetched(hourly)
    ensures var r := ProcessWeatherAsWritten(daily, hourly, hour);
            r.Done? ==>
              && Today(daily).Some? && Today(hourly).Some?
              && r.value.currentTemp.Some? && r.value.wind.Some? && r.value.rain.Some?
              && CurrentTemperature(Today(hourly).value, hour) == Done(r.value.currentTemp.value)
              && WindByBlock(Today(daily).value, TimeBlock(hour)) == Done(r.value.wind.value)
              && RainByBlock(Today(daily).value, TimeBlock(hour)) == Done(r.value.rain.value)
    ensures ProcessWeatherAsWritten(daily, hourly, hour).Raised? <==>
              || DailyPart(daily).Raised? || Today(hourly).None?
              || CurrentTemperature(Today(hourly).value, hour).Raised?
              || WindByBlock(Today(daily).value, TimeBlock(hour)).Raised?
              || RainByBlock(Today(daily).value, TimeBlock(hour)).Raised?
  {
  }

  /**
   As written, with only the daily forecast fetched, the call raises exactly when the daily
   part does and otherwise returns that part's range and sky.
   */
  lemma AsWrittenDailyOnly(daily: Response, hourly: Response, hour: int)
    requires !Fetched(hourly)
    ensures var r := ProcessWeatherAsWritten(daily, hourly, hour);
            && (r.Raised? <==> DailyPart(daily).Raised?)
            && (r.Done? ==> && r.value.maxTemp == DailyPart(daily).value.maxTemp
                            && r.value.minTemp == DailyPart(daily).value.minTemp
                            && r.value.sky == DailyPart(daily).value.sky)
  {
  }

  /** What the hourly forecast contributes: the current temperature, the wind and the rain. */
  datatype HourlyFields = HourlyFields(currentTemp: Option<Reading>, wind: Option<Reading>,
                                       rain: Option<Reading>)

  /**
   The `if clima_horario:` part as intended: every hourly field read from the hourly day, as
   the later revision of this module does.
   */
  function HourlyPart(hourly: Response, hour: int): (r: Attempt<HourlyFields>)
    ensures !Fetched(hourly) ==> r == Done(HourlyFields(None, None, None))
    ensures Fetched(hourly) && r.Done? ==>
              Today(hourly).Some? && r.value.currentTemp.Some? && r.value.wind.Some? && r.value.rain.Some?
    ensures Fetched(hourly) && r.Done? ==>
              var h := Today(hourly).value;
              && CurrentTemperature(h, hour) == Done(r.value.currentTemp.value)
              && WindByBlock(h, TimeBlock(hour)) == Done(r.value.wind.value)
              && RainByBlock(h, TimeBlock(hour)) == Done(r.value.rain.value)
    ensures Fetched(hourly) ==>
              (r.Raised? <==> Today(hourly).None? || CurrentTemperature(Today(hourly).value, hour).Raised?
                               || WindByBlock(Today(hourly).value, TimeBlock(hour)).Raised?
                               || RainByBlock(Today(hourly).value, TimeBlock(hour)).Raised?)
  {
    if !Fetched(hourly) then Done(HourlyFields(None, None, None))
    else
      match Today(hourly)
      case None => Raised
      case Some(h) =>
        var block := TimeBlock(hour);
        match (CurrentTemperature(h, hour), WindByBlock(h, block), RainByBlock(h, block))
        case (Done(now), Done(wind), Done(rain)) => Done(HourlyFields(Some(now), Some(wind), Some(rain)))
        case _ => Raised
  }

  /**
   `procesar_datos_clima` corrected: a forecast that was not fetched leaves its three fields
   `None` and cannot make the call raise; only the forecasts that were fetched are read.
   */
  function ProcessWeather(daily: Response, hourly: Response, hour: int): (r: Attempt<Record>)
    ensures !Fetched(daily) && !Fetched(hourly) ==> r == Done(Unknown)
    ensures r.Done? && !Fetched(daily) ==> r.value.maxTemp.None? && r.value.minTemp.None? && r.value.sky.None?
    ensures r.Done? && !Fetched(hourly) ==>
              r.value.currentTemp.None? && r.value.wind.None? && r.value.rain.None?
    ensures r.Done? && Fetched(daily) ==> r.value.maxTemp.Some? && r.value.minTemp.Some? && r.value.sky.Some?
    ensures r.Done? && Fetched(hourly) ==>
              r.value.currentTemp.Some? && r.value.wind.Some? && r.value.rain.Some?
    ensures r.Done? && Fetched(daily) ==>
              && Today(daily).Some?
              && Temperatures(Today(daily).value) == Done((r.value.maxTemp.value, r.value.minTemp.value))
              && MostFrequentSky(Today(daily).value) == Done(r.value.sky.value)
    ensures r.Done? && Fetched(hourly) ==>
              && Today(hourly).Some?
              && CurrentTemperature(Today(hourly).value, hour) == Done(r.value.currentTemp.value)
              && WindByBlock(Today(hourly).value, TimeBlock(hour)) == Done(r.value.wind.value)
              && RainByBlock(Today(hourly).value, TimeBlock(hour)) == Done(r.value.rain.value)
  {
    match (DailyPart(daily), HourlyPart(hourly, hour))
    case (Done(d), Done(h)) => Done(Record(d.maxTemp, d.minTemp, d.sky, h.currentTemp, h.wind, h.rain))
    case _ => Raised
  }

  /** The corrected call raises exactly when reading one of the fetched forecasts raises. */
  lemma RaisesIffAPartRaises(daily: Response, hourly: Response, hour: int)
    ensures ProcessWeather(daily, hourly, hour).Raised?
            <==> DailyPart(daily).Raised? || HourlyPart(hourly, hour).Raised?
  {
  }

  /**
   Where both revisions return a record, they agree on everything but the wind and the rain:
   the range and the sky come from the daily part and the current temperature from the
   hourly day in both.
   */
  lemma RevisionsAgreeOnRangeSkyAndTemperature(daily: Response, hourly: Response, hour: int)
    requires ProcessWeatherAsWritten(daily, hourly, hour).Done? && ProcessWeather(daily, hourly, hour).Done?
    ensures var (w, c) := (ProcessWeatherAsWritten(daily, hourly, hour).value, ProcessWeather(daily, hourly, hour).value);
            && w.maxTemp == c.maxTemp && w.minTemp == c.minTemp && w.sky == c.sky
            && w.currentTemp == c.currentTemp
  {
  }

  /**
   A forecast that was not fetched never makes the call raise: with one forecast missing, the
   call raises exactly when reading the other one does.
   */
  lemma UnfetchedForecastCannotRaise(daily: Response, hourly: Response, hour: int)
    ensures !Fetched(daily) ==> (ProcessWeather(daily, hourly, hour).Raised? <==> HourlyPart(hourly, hour).Raised?)
    ensures !Fetched(hourly) ==> (ProcessWeather(daily, hourly, hour).Raised? <==> DailyPart(daily).Raised?)
  {
  }

  /** An hourly forecast for today with empty lists: a well-formed answer with no data in it. */
  const EmptyHourly: Response :=
    Some([Prediction(Some([Day(Some(Hourly([])), Some([]), Some([]), Some([]))]))])

  /** As written, a missing daily forecast makes even this harmless hourly one raise. */
  lemma HourlyOnlyForecastRaises()
    ensures ProcessWeatherAsWritten(None, EmptyHourly, 10) == Raised
  {
  }

  /** Corrected, the same input yields a record whose hourly fields say "not available". */
  lemma HourlyOnlyForecastIsKept()
    ensures ProcessWeather(None, EmptyHourly, 10)
            == Done(Record(None, None, None, Some(NotAvailable), Some(NotAvailable), Some(NotAvailable)))
  {
  }
}
